=== FILE: README.md ===
# OS-SSKI core, modelled in Dafny

OS-SSKI simulates an operating system as three cooperating processes: a Kernel
that admits and schedules processes, a CPU that runs their instructions, and
a Memory unit that keeps two-level page tables, physical memory and per-process
swap files. They talk over sockets using opcode-tagged messages. This project
models the sequential logic of each part as pure Dafny functions over
immutable data. It proves the laws that logic obeys.

- **CPU** (`cpu.dfy`, `mmu.dfy`). Splits a logical address into page, offset
  and the two table indices. Composes the physical address. Runs one
  fetch/decode/execute cycle, which an interruption can cut short.
- **Memory unit** (`page_table.dfy`, `os_memory.dfy`, `cpu_controller.dfy`,
  `kernel_controller.dfy`):
  - fresh page tables;
  - the linear scans that find which table holds a frame or owns a Level-II
    table;
  - the present-bit and frames-per-process checks;
  - the read and write paths with page-fault handling;
  - process initialisation and teardown;
  - swap-file outcomes.
- **Kernel** (`scheduler.dfy`, `sts.dfy`, `lts.dfy`, `swap_controller.dfy`):
  - FIFO and SRT selection;
  - routing of the PCB the CPU sends back;
  - one admission step and one long-term iteration, with semaphores as
    counters;
  - the messages the Kernel sends to Memory.
- **Shared** (`common.dfy`, `opcode.dfy`, `wire.dfy`, `safe_queue.dfy`,
  `pcb.dfy`): `uint32_t` values and their little-endian bytes, the opcode
  enumeration, the operands pair, the queue contract and the PCB record.
- **End to end** (`protocol.dfy`): what one side encodes is what the other
  side decodes, and a process's life from admission to teardown.

Modelling choices:
- `uint32_t` values are the subset type `U32`. Where C arithmetic can wrap,
  `Wrap32` does it explicitly: the physical-address composition, and the
  `size_t` PCB size sent as a `uint32_t`.
- A `uint32_t` on the wire is its four little-endian bytes, which is what
  `memcpy` produces on the hosts the project targets. Physical memory is a
  byte sequence holding words the same way.
- Socket, file-system and resume results are parameters: the byte count
  received, whether `open`, `mmap` or `fstat` succeeded, and the PCB `resume`
  hands back.
- `memory/src/module/os_memory.c` is not part of this model. Its operations
  are given the simplest definitions that meet their header's promises:
  - `create_new_process` appends a table;
  - `delete_process` empties the slot;
  - `find_free_frame` returns the lowest frame held by no present row;
  - `create_frame_for_table` marks the first row holding the frame present
    and returns that row's index.
- Where the design description and the code disagree, the model follows the
  code. A PCB that comes back BLOCKED is described as joining a blocked queue,
  but `execute` does nothing with it. A write to a page that is already
  present does not set its modified bit; the code only logs.

## Model

| member | source | states |
|---|---|---|
| Common.Wrap32 | cpu/src/module/cpu.c:549 | `uint32_t` truncation leaves in-range values alone and is congruent to its input modulo 2^32 |
| Common.EncodeU32 | kernel/src/client/swap_controller.c:75-78 | a `uint32_t` travels as exactly four bytes, least significant first |
| Common.DecodeU32 | memory/src/server/kernel_controller.c:102-104 | reading a `uint32_t` from four bytes gives a value whose low byte is the first byte |
| Common.DecodeEncodeU32 | memory/src/server/kernel_controller.c:102-104 | every `uint32_t` copied into a stream is read back unchanged |
| Common.EncodeDecodeU32 | memory/src/server/kernel_controller.c:102-104 | any four bytes are the encoding of the value read from them, so streams and values correspond one to one |
| Common.EncodeU32Injective | kernel/src/client/swap_controller.c:75-78 | distinct values never share a four-byte encoding |
| Opcodes.Ordinal | lib/inc/connection/opcode.h:22-66 | every code has an ordinal below 21, and the code at that position in declaration order is itself |
| Opcodes.FromOrdinal | lib/inc/connection/opcode.h:22-66 | an integer names a code exactly when it lies in 0..20, and then that code's ordinal is the integer |
| Opcodes.OrdinalOfDeclared | lib/inc/connection/opcode.h:22-66 | ordinals are consecutive in declaration order, from DC = 0 to PROCESS_TERMINATED = 20 |
| Opcodes.FromOrdinalOrdinal | lib/inc/connection/opcode.h:22-66 | opcode to integer to opcode is the identity |
| Opcodes.OrdinalInjective | lib/inc/connection/opcode.h:22-66 | no two codes share an ordinal |
| Opcodes.WriteCodesDistinct | lib/inc/connection/opcode.h:42-51 | the two write codes are different codes: WR is 9 and WT is 13 |
| Wire.EncodeOperands | kernel/src/scheduling/lts.c:98-101 | an operands pair is eight bytes: op1's four bytes, then op2's |
| Wire.DecodeOperands | memory/src/server/kernel_controller.c:138-140 | the pair read from a stream re-encodes to the stream's first eight bytes |
| Wire.DecodeEncodeOperands | kernel/src/scheduling/lts.c:98-103 | an encoded operands pair decodes to the same pair |
| Mmu.PageNumber | cpu/src/module/cpu.c:553-555 | the page is the one whose byte range contains the logical address |
| Mmu.Offset | cpu/src/module/cpu.c:557-559 | the offset is below the page size and page·size + offset rebuilds the address |
| Mmu.Level1Index | cpu/src/module/cpu.c:561-563 | the Level-I index is the block of `entries` pages containing the page |
| Mmu.Level2Index | cpu/src/module/cpu.c:565-567 | the Level-II index is below `entries`, and l1·entries + l2 is the page |
| Mmu.ComposeInFrame | cpu/src/module/cpu.c:549 | a composed address that fits in 32 bits lies inside its frame, keeps the offset, and divides back to the frame |
| Mmu.PhysicalAddressKeepsOffset | cpu/src/module/cpu.c:538-550 | the translated address keeps the logical offset and lies in the frame Memory reported for the page |
| Mmu.WorkedExample | cpu/src/module/cpu.c:507-525 | with 64-byte pages, 575 is page 8 offset 63, and page 8 in frame 3 gives 255 |
| Mmu.DecompositionExample | cpu/src/module/cpu.c:553-567 | with 64-byte pages and 4 entries, 2111 is page 32, offset 63, Level-I 8, Level-II 0 |
| Cpu.InstructionFetch | cpu/src/module/cpu.c:297-303 | the fetched instruction is the one at pc, there is none past the end, and pc advances by one with nothing else changed |
| Cpu.WriteRequest | cpu/src/module/cpu.c:476-491 | the CPU's WRITE goes out under WT, not WR, with eight bytes that decode to (physical address, value) |
| Cpu.WriteWord | memory/src/server/cpu_controller.c:177 | Memory stores the value as its four little-endian bytes from the address on, and no other byte changes |
| Cpu.WriteWordReads | memory/src/server/cpu_controller.c:177 | the word written reads back as the value, and every word sharing no byte with it reads as before |
| Cpu.ExecuteWrite | cpu/src/module/cpu.c:476-491 | after WRITE the translated address reads the value; only its four bytes change, so words sharing no byte with it read as before |
| Cpu.ExecuteCopy | cpu/src/module/cpu.c:493-500 | COPY returns the value stored at its source and stores it at its destination; only the destination's four bytes change |
| Cpu.ExecuteEffects | cpu/src/module/cpu.c:363-449 | only IO and EXIT return the PCB, as BLOCKED and TERMINATED with their first parameter; only READ and COPY yield a value; only WRITE and COPY touch memory; nothing but status changes in the PCB |
| Cpu.CopySemantics | cpu/src/module/cpu.c:305-308 | COPY reads at its second operand and writes that value at its first |
| Cpu.Cycle | cpu/src/module/cpu.c:227-272 | a cycle always clears the interruption; with one pending pc stays put, otherwise pc advances by exactly one |
| Cpu.InterruptedCycle | cpu/src/module/cpu.c:264-271 | an interrupted cycle returns the PCB as READY with parameter 0, fetches nothing and leaves memory alone |
| Cpu.UninterruptedCycle | cpu/src/module/cpu.c:229-262 | an uninterrupted cycle runs the instruction at pc: IO blocks, EXIT terminates, others keep the status and return nothing |
| PageTable.NewPageTable | memory/src/module/page_table.c:15-27 | a fresh Level-I table has exactly `rows` entries, none naming a Level-II table |
| PageTable.NewPageTableLvl2 | memory/src/module/page_table.c:29-44 | a fresh Level-II table has exactly `rows` entries, each with no frame and every flag clear |
| PageTable.NewPageTableReferencesNothing | memory/src/module/page_table.c:20-24 | a fresh Level-I table owns no real Level-II table |
| PageTable.PresentCount | memory/src/server/cpu_controller.c:479-485 | the present count of a table is at most its size and is zero exactly when no row is present |
| PageTable.NewPageTableLvl2NothingPresent | memory/src/module/page_table.c:37-40 | a fresh Level-II table adds nothing to any present count |
| PageTable.FirstRowWithFrame | memory/src/server/cpu_controller.c:459-465 | the scan finds the first row holding the frame, and finds nothing exactly when no row holds it |
| PageTable.MarkPresentCount | memory/src/server/cpu_controller.c:117 | marking a non-present row present raises the table's present count by exactly one |
| SafeQueue.Push | lib/inc/util/queue/safe_queue.h:45-53 | push keeps the queue as its prefix and puts the element last |
| SafeQueue.Pop | lib/inc/util/queue/safe_queue.h:55-62 | pop takes the head, leaving the rest in order; an empty queue gives nothing and stays as it was |
| SafeQueue.Peek | lib/inc/util/queue/safe_queue.h:64-70 | peek gives the head, and nothing exactly when the queue is empty |
| SafeQueue.PeekAgreesWithPop | lib/inc/util/queue/safe_queue.h:64-78 | peek sees what pop would remove, and `is_empty` holds exactly when pop finds nothing |
| SafeQueue.PushThenPop | lib/inc/util/queue/safe_queue.h:45-62 | first in, first out: a push is seen by pop only after everything queued before it |
| SafeQueue.FirstIndex | lib/inc/util/queue/safe_queue.h:88-94 | the index found is the first one that matches, and there is none exactly when nothing matches |
| SafeQueue.FindBy | lib/inc/util/queue/safe_queue.h:88-94 | `find_by` returns a queued element meeting the criteria, and nothing exactly when none does |
| SafeQueue.Any | lib/inc/util/queue/safe_queue.h:96-102 | `any` holds exactly when some element matches |
| SafeQueue.AnyIffFound | lib/inc/util/queue/safe_queue.h:88-102 | `any` agrees with whether `find_by` finds something |
| SafeQueue.RemoveBy | lib/inc/util/queue/safe_queue.h:104-111 | `remove_by` removes the first matching element and keeps the rest in order; with no match it returns nothing and the queue is unchanged |
| SafeQueue.RemoveByUnique | lib/inc/util/queue/safe_queue.h:104-111 | when at most one element matches, none is left afterwards and removing again changes nothing |
| SafeQueue.Insert | lib/inc/util/queue/safe_queue.h:80-86 | inserting adds exactly that element to the queue's multiset |
| SafeQueue.InsertSorted | lib/inc/util/queue/safe_queue.h:80-86 | insertion into a sorted queue keeps it sorted |
| SafeQueue.SortBy | lib/inc/util/queue/safe_queue.h:80-86 | sorting yields a permutation of the queue in non-decreasing key order |
| SafeQueue.SortedHeadIsMinimal | lib/inc/util/queue/safe_queue.h:80-86 | the head of a sorted queue has the least key |
| OsMemory.CreateNewProcess | memory/inc/module/os_memory.h:17-23 | the id returned names a new, fresh Level-I table; existing tables keep their ids and nothing else changes |
| OsMemory.DeleteProcess | memory/inc/module/os_memory.h:25-31 | exactly the given table is released, and every other table keeps its id and contents |
| OsMemory.DeleteProcessIdempotent | memory/inc/module/os_memory.h:25-31 | deleting a table twice is the same as deleting it once |
| OsMemory.FindFreeFrame | memory/inc/module/os_memory.h:33-39 | the frame returned is the lowest one no present row holds; `UINT32_MAX` means every frame is in use |
| OsMemory.FirstPresentRow | memory/src/server/cpu_controller.c:459-465 | the row found holds the frame with its present bit set, and there is none exactly when no such row exists |
| OsMemory.CreateFrameForTable | memory/inc/module/os_memory.h:41-49 | the index returned is the first row holding the frame, now present; `UINT32_MAX`, with nothing changed, when the table does not hold the frame |
| OsMemory.WriteInMemory | memory/inc/module/os_memory.h:51-59 | the four bytes at the address become the value's encoding and no other byte changes |
| OsMemory.ReadAfterWrite | memory/inc/module/os_memory.h:51-68 | a read after a write at the same address gives the written value |
| OsMemory.WriteLeavesOtherWords | memory/src/server/cpu_controller.c:194-216 | words at least four bytes away from a write read as before |
| OsMemory.DeleteSwapData | memory/inc/module/os_memory.h:100 | the pid's first swap record is removed and the remaining records keep their order; records of other pids stay; an unknown pid changes nothing |
| OsMemory.DeleteSwapDataClears | memory/inc/module/os_memory.h:100 | a pid with one swap record has none afterwards, and deleting again changes nothing |
| CpuController.GetFrame | memory/src/server/cpu_controller.c:449-453 | the frame is the one whose byte range contains the physical address |
| CpuController.GetTableLvl2Number | memory/src/server/cpu_controller.c:428-447 | the lowest Level-II table holding the frame, or `UINT32_MAX` exactly when no table holds it |
| CpuController.FrameIsPresent | memory/src/server/cpu_controller.c:455-468 | the answer is the present bit of the first row holding the frame, and false when no row holds it |
| CpuController.GetTableLvl1Number | memory/src/server/cpu_controller.c:491-510 | corrected scan: the lowest live Level-I table naming the Level-II table, or `UINT32_MAX` exactly when none does |
| CpuController.GetTableLvl1NumberAsWritten | memory/src/server/cpu_controller.c:494-509 | the scan as written looks only at the first (number of Level-II tables) Level-I tables, and returns the lowest of them naming the Level-II table, or `UINT32_MAX` exactly when none does |
| CpuController.Lvl1ScanBoundMissesOwner | memory/src/server/cpu_controller.c:494-496 | with two processes and one Level-II table owned by the second, the scan as written reports no owner and the corrected one finds it |
| CpuController.OwnedPresentCount | memory/src/server/cpu_controller.c:476-486 | the count is the number of (Level-I row, Level-II row) pairs the two loops visit where the Level-I row names an existing Level-II table whose row is present |
| CpuController.RowPairsCount | memory/src/server/cpu_controller.c:479-485 | the present rows of one Level-II table, tagged with the Level-I row naming it, number its present count |
| CpuController.UnsetTableCountsNothing | memory/src/server/cpu_controller.c:476-486 | a Level-I table that names no Level-II table owns no present row |
| CpuController.ShouldReplaceFrame | memory/src/server/cpu_controller.c:470-489 | with the first live Level-I table naming the Level-II table as owner, replacement is required exactly when the owner's present pairs reach the frames-per-process quota; with no owner, exactly when the quota is zero |
| CpuController.PresentPairsGrow | memory/src/server/cpu_controller.c:476-486 | while rows are only marked present, the present pairs of any Level-I table only grow |
| CpuController.QuotaStaysReached | memory/src/server/cpu_controller.c:470-489 | a process that has reached its quota stays at it while page faults only mark rows present |
| CpuController.ObtainSecondPageAsWritten | memory/src/server/cpu_controller.c:394-406 | the guard as written lets exactly the index `max_rows` read past the table; beyond it the answer is `UINT32_MAX` whatever table is named |
| CpuController.ObtainSecondPage | memory/src/server/cpu_controller.c:394-406 | corrected: `UINT32_MAX` for any index outside the table, whatever table is named; otherwise the stored Level-II id |
| CpuController.ObtainFrameAsWritten | memory/src/server/cpu_controller.c:409-421 | the guard as written lets exactly the index `max_rows` read past the table; beyond it the answer is `UINT32_MAX` whatever table is named |
| CpuController.ObtainFrame | memory/src/server/cpu_controller.c:409-421 | corrected: `UINT32_MAX` for any index outside the table, whatever table is named; otherwise the stored frame |
| CpuController.GuardsAdmitOnePastEnd | memory/src/server/cpu_controller.c:399-420 | apart from index `max_rows`, which lies past the end of both tables, the guards as written agree with the corrected ones |
| CpuController.SendPageSecondLevel | memory/src/server/cpu_controller.c:332-361 | a request with no bytes, or with an index outside the table, is answered `UINT32_MAX`; otherwise the answer is the named Level-I table's entry at the index |
| CpuController.SendFrame | memory/src/server/cpu_controller.c:302-330 | a request with no bytes, or with an index outside the table, is answered `UINT32_MAX`; otherwise the answer is the named Level-II table's frame at the index |
| CpuController.FaultIn | memory/src/server/cpu_controller.c:103-119 | afterwards the frame is present. A present frame changes nothing and reports no replacement. A fault reports the quota check and marks exactly the first row holding the frame present. Other tables, Level-I tables, swap state and all bytes are unchanged |
| CpuController.FirstRowAfterMark | memory/src/server/cpu_controller.c:117 | marking the first row of a frame present keeps it the first row of that frame |
| CpuController.ControllerRead | memory/src/server/cpu_controller.c:87-135 | a frame in no table abandons the request. Otherwise the reply under RD is the stored word; only the Level-II tables may change, and only by marking the frame's first row present on a fault; replacement is reported exactly on a fault whose owner is at its quota |
| CpuController.ControllerWrite | memory/src/server/cpu_controller.c:137-216 | a frame in no table abandons the request. Otherwise nothing is sent, the four bytes at the address become the value and no other byte changes; tables change and replacement is reported as for a read |
| KernelController.Zeros | memory/src/server/kernel_controller.c:147 | a new swap file holds `size` zero bytes |
| KernelController.MemoryInit | memory/src/server/kernel_controller.c:127-178 | an empty request changes nothing and gets no reply. Otherwise exactly one swap record (pid, size) is appended, a swap file is created, a fresh table is added, and its id is the MEMORY_INIT reply |
| KernelController.DestroyTarget | memory/src/server/kernel_controller.c:102-104 | the pid is encoded in bytes 0..4 and the table id in bytes 4..8 |
| KernelController.DestroyProcessFile | memory/src/server/kernel_controller.c:96-125 | the named table's slot is emptied, the pid's swap file is gone, and the pid's first swap record is removed with the other records in order. Other tables, other pids' files and records, Level-II tables and physical memory are unchanged |
| KernelController.DestroyProcessFileIdempotent | memory/src/server/kernel_controller.c:264-268 | tearing the same process down twice is the same as once |
| KernelController.InitThenDestroy | memory/src/server/kernel_controller.c:96-178 | initialisation followed by teardown with the id handed out releases that slot, leaves no swap file, and restores the swap records |
| KernelController.Resize | memory/src/server/kernel_controller.c:239 | `ftruncate` leaves the file's prefix and pads with zeros to the new length |
| KernelController.SwapPcb | memory/src/server/kernel_controller.c:225-262 | SUCCESS exactly when the file opened and the mapping did not fail, and then the file holds the stream. A failed open changes no file. Other pids' files are never touched |
| KernelController.RetrieveSwappedPcb | memory/src/server/kernel_controller.c:184-223 | a stream comes back exactly when the file exists, opens and can be inspected, and it is the file's content |
| KernelController.SwapThenRetrieve | memory/src/server/kernel_controller.c:184-262 | a successful swap-out is read back byte for byte, and other pids read as before |
| KernelController.DestroyedPcbIsGone | memory/src/server/kernel_controller.c:264-268 | after teardown the pid's PCB can no longer be retrieved |
| SwapController.Exit | kernel/src/client/swap_controller.c:65-84 | the exit message is PROCESS_TERMINATED with eight bytes: the pid, then the page table id |
| SwapController.ExitDeterminedByIdAndTable | kernel/src/client/swap_controller.c:70-78 | two PCBs produce the same exit message exactly when they share pid and page table |
| SwapController.RequestPcb | kernel/src/client/swap_controller.c:39-44 | the request is RETRIEVE_SWAPPED_PCB with a four-byte payload that decodes to the pid |
| SwapController.SendPcb | kernel/src/client/swap_controller.c:23-37 | the PCB's stream goes out unchanged under the caller's opcode |
| SwapController.ReceivePcb | kernel/src/client/swap_controller.c:46-63 | no PCB is ever recovered from the received stream |
| Scheduler.GetNextFifo | kernel/src/scheduling/scheduler_algorithms.c:13-18 | FIFO takes the head of READY and leaves the old tail in order; nothing when READY is empty |
| Scheduler.GetNextSrt | kernel/src/scheduling/scheduler_algorithms.c:20-24 | SRT takes a PCB of least estimation. What remains is sorted by estimation, and with the PCB taken it is a permutation of the old READY |
| Scheduler.SortedPopFacts | kernel/src/scheduling/scheduler_algorithms.c:22-23 | popping the head of a sorted permutation takes a minimal element and leaves a sorted rest |
| Scheduler.SrtAgreesWithFifoWhenSorted | kernel/src/scheduling/scheduler_algorithms.c:20-24 | on a READY queue already in estimation order, SRT and FIFO pick PCBs of the same estimation |
| Scheduler.GetNext | kernel/inc/scheduling/scheduler.h:18-32 | either policy takes a PCB that was in READY, and it and the rest make up the old READY exactly |
| Sts.Terminate | kernel/src/scheduling/sts.c:78-83 | termination frees exactly one multiprogramming slot and changes nothing else |
| Sts.Execute | kernel/src/scheduling/sts.c:43-76 | the PCB is sent as EXECUTING and READY still exists afterwards |
| Sts.ExecuteRoutesOnce | kernel/src/scheduling/sts.c:63-75 | a returned PCB is accounted for once: TERMINATED frees a slot, BLOCKED is dropped, any other status is queued at the tail, and nothing else changes |
| Sts.ShortTermIteration | kernel/src/scheduling/sts.c:21-41 | an iteration is idle exactly when READY is empty; otherwise the PCB sent is one from READY, marked EXECUTING |
| Sts.EmptySelectionChangesNothing | kernel/src/scheduling/sts.c:31-39 | with READY empty nothing is dispatched and nothing changes |
| Sts.IterationConservesReady | kernel/src/scheduling/sts.c:21-83 | READY loses the PCB dispatched and gains the returned PCB unless it came back BLOCKED or TERMINATED; `dom` rises only for TERMINATED |
| Lts.MemoryInitRequest | kernel/src/scheduling/lts.c:95-103 | the request is MEMORY_INIT with eight bytes that decode to (pid, size truncated to 32 bits) |
| Lts.Admit | kernel/src/scheduling/lts.c:70-148 | with either queue missing nothing changes. Otherwise `execute` is signalled once, a resumable PCB is preferred and NEW is left alone, and else the head of NEW is taken. It gets Memory's table id when a reply arrived, becomes READY and goes to the tail of READY |
| Lts.AdmitKeepsPcbCount | kernel/src/scheduling/lts.c:82-133 | NEW and READY together gain one PCB exactly when a suspended one is resumed, and otherwise keep their number |
| Lts.AdmitAsWritten | kernel/src/scheduling/lts.c:85-96 | the code as written dereferences NULL exactly when NEW is empty, nothing is resumable and Memory is connected |
| Lts.AdmitNullPcbExample | kernel/src/scheduling/lts.c:85-96 | an empty NEW queue with Memory connected crashes the code as written; the corrected step only signals `execute` |
| Lts.AdmitAsWrittenAgrees | kernel/src/scheduling/lts.c:70-148 | wherever the code as written does not crash, it matches the corrected step |
| Lts.LongTermIteration | kernel/src/scheduling/lts.c:41-65 | an iteration waits for a request when none is pending, and for a slot (with the request consumed) when none is free |
| Lts.IterationConsumesRequestAndSlot | kernel/src/scheduling/lts.c:46-63 | an admitting iteration consumes exactly one request and one slot, and does not return the slot even when no PCB was found |
| Protocol.ExitPayloadRoundTrip | memory/src/server/kernel_controller.c:102-104 | Memory decodes the Kernel's PROCESS_TERMINATED payload to the PCB's own pid and page table |
| Protocol.MemoryInitRoundTrip | kernel/src/scheduling/lts.c:95-117 | the Kernel's MEMORY_INIT makes Memory record (pid, size) and create a table; that table's id becomes the admitted PCB's page table |
| Protocol.SwapRoundTrip | kernel/src/client/swap_controller.c:23-44 | a PCB swapped out under SWAP_PCB and asked for by pid under RETRIEVE_SWAPPED_PCB comes back byte for byte |
| Protocol.ProcessLifecycle | memory/src/server/kernel_controller.c:96-178 | a process initialised by MEMORY_INIT and ended by its PROCESS_TERMINATED leaves its table slot empty, no swap file, and the swap records as before |
| Protocol.AdmitThenTerminateRestoresSlot | kernel/src/scheduling/sts.c:68-82 | the slot an admission takes is given back when that process returns TERMINATED |

## Left out

- Sockets, threads, semaphore blocking, `sleep`, logging and table printing. Each exchange is a parameter or a returned message. Semaphores are counters, and a wait that would block is a distinct outcome.
- The queue's mutex; queues are sequences.
- `fetch_operands` and the send/receive halves of READ in the CPU. They are abstract lookups: table-walk answers, an operand pair, and a byte store in which an unwritten byte reads 0. The WRITE request is modelled as the message sent (Cpu.WriteRequest), and its effect as Memory's four-byte store.
- `update_TLB`, `obtener_tabla_segundo_nivel`, `obtener_frame` and `execute_NO_OP`'s sleep in cpu/src/module/cpu.c.
- CPU initialisation, destruction, signal handling and its server threads.
- `obtain_memory_value` (random), `replaze_frame`, the commented-out frame replacement, `frame_exist`, `cpu_controller_send_entries` and `cpu_controller_send_size`. The replacement check is computed and reported but has no effect, as in the code.
- `kernel_controller_read_swap`: `unswap_pcb` is not part of this model.
- PCB serialisation (`pcb_to_stream`, `pcb_from_stream`, `pcb_bytes_size`). A PCB stream is opaque bytes, and the pid it carries is passed alongside.
- `check_interruption` in `admit`, and the internals of `resume`, which is an oracle here.
- KernelController.Zeros: `create_file` is not part of this model. The new swap file is taken to be `size` zero bytes.
- The swap file's path and `file_exists`: a pid has a file exactly when it is a key of the file map.
- `memory/src/module/os_memory.c` is not part of this model; the header's operations get the definitions described above.
- Freeing Level-II tables when a process is deleted: the header says nothing about it.
- Filling Level-I rows with Level-II ids and creating Level-II tables: `os_memory.c` does this, so no modelled operation writes a Level-II id into a Level-I row. The owner branch of CpuController.ShouldReplaceFrame and CpuController.QuotaStaysReached are stated for any valid memory state, including the ones those allocations produce.
- CpuController.ShouldReplaceFrame: uses the corrected owner scan from the cpu_controller.c:494-496 finding. Where the scan as written misses the owner (more Level-I than Level-II tables), the code as written passes `UINT32_MAX` to `safe_list_get` and dereferences the missing table; the model counts the true owner's rows instead. With no owner at all it counts zero.
- CpuController.OwnedPresentCount: a Level-I entry whose Level-II id is unset or names no table adds nothing. The C code gets no table from `safe_list_get` for that id and dereferences it in the inner loop.
- CpuController.GetTableLvl2Number: `INVALID_FRAME`, defined outside cpu_controller.c, is taken to equal `UINT32_MAX`, the value both callers test.
- CpuController.ObtainSecondPage: a missing or deleted Level-I table with an index below `max_rows` is excluded. `list_get` gives NULL there and the code dereferences it.
- CpuController.ObtainSecondPageAsWritten: a missing or deleted Level-I table with an index up to `max_rows` is excluded, for the same NULL dereference.
- CpuController.ObtainFrame: a missing Level-II table with an index below `max_rows` is excluded, for the same NULL dereference.
- CpuController.ObtainFrameAsWritten: a missing Level-II table with an index up to `max_rows` is excluded, for the same NULL dereference.
- CpuController.SendPageSecondLevel: a request of 1 to 7 bytes is excluded, because `operandos_from_stream` reads eight; so is the NULL dereference excluded for ObtainSecondPage.
- CpuController.SendFrame: a request of 1 to 7 bytes is excluded, because `operandos_from_stream` reads eight; so is the NULL dereference excluded for ObtainFrame.
- KernelController.DestroyTarget: a payload shorter than eight bytes is excluded. The code copies eight bytes out of it without checking the count received.
- KernelController.DestroyProcessFile: a payload shorter than eight bytes is excluded, as for DestroyTarget.
- CpuController.ControllerRead: the requires keeps the four bytes read inside physical memory. The C code does not check this.
- CpuController.ControllerRead: the physical address is taken as already decoded. In the C code the CPU sends it as a four-byte stream (cpu/src/module/cpu.c:458-463), and `receive_operands` reads that stream as an eight-byte operands pair (memory/src/server/cpu_controller.c:89, 377-384). Every READ therefore reads four bytes past the received buffer; the address (`op1`) is intact and the garbage `op2` is unused.
- CpuController.ControllerWrite: the requires keeps the four bytes written inside physical memory. The C code does not check this.
- CpuController.GetTableLvl1NumberAsWritten: defined only where the code as written stays in bounds. The Level-II list must be no longer than the Level-I list, and the Level-I tables scanned must be live (not deleted).
- KernelController.MemoryInit: a non-empty request shorter than eight bytes is excluded. The code would read past it, and the Kernel always sends eight.
- Lts.Admit: the link's byte count and reply must agree. A receive that reports bytes but returns no stream is excluded.
- Sts.Execute: a PCB the CPU fails to return (a NULL receive) is not modelled. The CPU's answer is always a PCB.

## Findings

| source | as written | input that shows it | evidently intended | confidence | as-written member | corrected member |
|---|---|---|---|---|---|---|
| memory/src/server/cpu_controller.c:399 | `index > max_rows` rejects only indices beyond `max_rows` | index equal to `max_rows`: reads the row one past the end of the Level-I table | reject `index >= max_rows` | high, not executed | CpuController.ObtainSecondPageAsWritten | CpuController.ObtainSecondPage |
| memory/src/server/cpu_controller.c:414 | `index > max_rows` rejects only indices beyond `max_rows` | index equal to `max_rows`: reads the row one past the end of the Level-II table | reject `index >= max_rows` | high, not executed | CpuController.ObtainFrameAsWritten | CpuController.ObtainFrame |
| memory/src/server/cpu_controller.c:494-496 | the Level-I scan takes its bound from the size of the Level-II list | two processes, one Level-II table (id 0) named only by the second process's Level-I table: the owner is reported missing | bound the scan by the size of the Level-I list and skip deleted tables | high, not executed | CpuController.Lvl1ScanBoundMissesOwner | CpuController.GetTableLvl1Number |
| kernel/src/scheduling/lts.c:85-96 | the PCB popped from NEW is dereferenced before the NULL check at line 127 | admission with NEW empty, nothing to resume, and Memory connected | take the "no process to admit" branch: send nothing and only signal `execute` | medium, not executed | Lts.AdmitNullPcbExample | Lts.Admit |

=== FILE: common.dfy ===
/**
 Shared vocabulary of the simulator model: the `uint32_t` range and its
 "unset"/"error" sentinel, bytes, an Option type, and the little-endian
 encoding a `memcpy` of a `uint32_t` produces on the target machines.
 */
module Common {

  /** `UINT32_MAX`: the largest `uint32_t`, used throughout as "unset" or "error". */
  const UINT32_MAX: nat := 0xFFFF_FFFF

  /** Number of distinct `uint32_t` values. */
  const TWO_POW_32: nat := 0x1_0000_0000

  /** A value that fits in a `uint32_t`. */
  type U32 = x: nat | x <= UINT32_MAX

  /** One byte of a stream or of physical memory. */
  type Byte = b: int | 0 <= b < 256

  /** Truncation of an unbounded result to `uint32_t`, as C's unsigned arithmetic does. */
  function Wrap32(x: nat): (r: U32)
    ensures x <= UINT32_MAX ==> r == x
    ensures (x - r) % TWO_POW_32 == 0
  {
    x % TWO_POW_32
  }

  datatype Option<+T> = None | Some(value: T)

  /** The four bytes `memcpy` copies out of a `uint32_t` on a little-endian host. */
  function EncodeU32(x: U32): (bs: seq<Byte>)
    ensures |bs| == 4
    ensures bs[0] == x % 256
  {
    [x % 256, (x / 256) % 256, (x / 65536) % 256, x / 16777216]
  }

  /** The `uint32_t` whose little-endian bytes are `bs`. */
  function DecodeU32(bs: seq<Byte>): (x: U32)
    requires |bs| == 4
    ensures x % 256 == bs[0]
  {
    var b0: int, b1: int, b2: int, b3: int := bs[0], bs[1], bs[2], bs[3];
    b0 + 256 * b1 + 65536 * b2 + 16777216 * b3
  }

  /** Decoding undoes encoding: every `uint32_t` survives the trip through four bytes. */
  lemma DecodeEncodeU32(x: U32)
    ensures DecodeU32(EncodeU32(x)) == x
  {
    var b0, b1, b2, b3 := x % 256, (x / 256) % 256, (x / 65536) % 256, x / 16777216;
    assert x == b0 + 256 * (x / 256);
    assert x / 256 == b1 + 256 * (x / 65536);
    assert x / 65536 == b2 + 256 * b3;
  }

  /** Encoding undoes decoding: four bytes name exactly one `uint32_t`. */
  lemma EncodeDecodeU32(bs: seq<Byte>)
    requires |bs| == 4
    ensures EncodeU32(DecodeU32(bs)) == bs
  {
    var x: int := DecodeU32(bs);
    var b0: int, b1: int, b2: int, b3: int := bs[0], bs[1], bs[2], bs[3];
    var hi: int := b1 + 256 * b2 + 65536 * b3;
    assert x == b0 + 256 * hi;
    assert x % 256 == b0 && x / 256 == hi;
    var hi2: int := b2 + 256 * b3;
    assert hi == b1 + 256 * hi2;
    assert hi % 256 == b1 && hi / 256 == hi2;
    assert x / 65536 == hi2 by {
      assert x / 65536 == (x / 256) / 256;
    }
    assert hi2 % 256 == bs[2] && hi2 / 256 == bs[3];
    assert x / 16777216 == bs[3] by {
      assert x / 16777216 == (x / 65536) / 256;
    }
  }

  /** Two different `uint32_t` values never share an encoding. */
  lemma EncodeU32Injective(x: U32, y: U32)
    requires EncodeU32(x) == EncodeU32(y)
    ensures x == y
  {
    DecodeEncodeU32(x);
    DecodeEncodeU32(y);
  }
}

=== FILE: cpu.dfy ===
/**
 The CPU execution engine (cpu/src/module/cpu.c): one fetch/decode/execute
 cycle over the PCB on the CPU, with an interruption short-circuiting it.

 Every exchange with the Memory unit is an abstract answer in `Env`: the two
 table-walk replies, the operand pair `fetch_operands` receives for COPY, and
 physical memory as Memory keeps it: bytes, each `uint32_t` stored as its four
 little-endian bytes from its address on (a byte never written reads as 0).
 */
module Cpu {
  import opened Common
  import opened Pcbs
  import opened Opcodes
  import opened Wire
  import Mmu

  /** The CPU's state: the PCB it runs, the interruption flag, and the MMU geometry Memory reported. */
  datatype Cpu = Cpu(pcb: Pcb, hasInterruption: bool, pageSize: U32, entries: U32)
  {
    predicate Valid() { pageSize > 0 && entries > 0 }
  }

  /** What the Memory unit answers during a cycle. */
  datatype Env = Env(
    secondLevel: (U32, U32) -> U32,
    frameOf: (U32, U32) -> U32,
    fetchedOperands: (U32, U32)
  )

  /** The `return_pcb(client, pcb, param)` message sent back to the Kernel's dispatcher. */
  datatype Returned = Returned(pcb: Pcb, param: U32)

  /** Physical memory as the CPU's requests see it: byte address to byte. */
  type Store = map<nat, Byte>

  /** The result of `instruction_execute`: updated PCB and memory, an optional return to the Kernel, the returned value. */
  datatype Executed = Executed(pcb: Pcb, words: Store, returned: Option<Returned>, value: U32)

  /** The state after one `cycle`. */
  datatype Cycled = Cycled(cpu: Cpu, words: Store, returned: Option<Returned>)

  /** The byte at address `a` (0 if never written). */
  function ByteAt(s: Store, a: nat): Byte
  {
    if a in s then s[a] else 0
  }

  /** The value Memory answers for a physical address: the word in its four bytes. */
  function ReadWord(s: Store, pa: nat): U32
  {
    DecodeU32([ByteAt(s, pa), ByteAt(s, pa + 1), ByteAt(s, pa + 2), ByteAt(s, pa + 3)])
  }

  /**
   What Memory does with a WRITE (`memcpy` of the value to `pa`): the four
   bytes from `pa` on become the value's encoding, and no other byte changes.
   */
  function WriteWord(s: Store, pa: nat, value: U32): (w: Store)
    ensures forall a :: pa <= a < pa + 4 ==> ByteAt(w, a) == EncodeU32(value)[a - pa]
    ensures forall a: nat :: !(pa <= a < pa + 4) ==> ByteAt(w, a) == ByteAt(s, a)
  {
    var e := EncodeU32(value);
    s[pa := e[0]][pa + 1 := e[1]][pa + 2 := e[2]][pa + 3 := e[3]]
  }

  /** A word reads back as written, and words sharing no byte with it read as before. */
  lemma WriteWordReads(s: Store, pa: nat, value: U32, qa: nat)
    ensures ReadWord(WriteWord(s, pa, value), pa) == value
    ensures qa + 4 <= pa || pa + 4 <= qa ==> ReadWord(WriteWord(s, pa, value), qa) == ReadWord(s, qa)
  {
    var w := WriteWord(s, pa, value);
    DecodeEncodeU32(value);
    assert [ByteAt(w, pa), ByteAt(w, pa + 1), ByteAt(w, pa + 2), ByteAt(w, pa + 3)] == EncodeU32(value);
  }

  /** Logical-to-physical translation through the Memory unit's answers (`req_physical_address`). */
  function Translate(cpu: Cpu, env: Env, la: U32): U32
    requires cpu.Valid()
  {
    Mmu.PhysicalAddress(la, cpu.pageSize, cpu.entries, cpu.pcb.pageTable, env.secondLevel, env.frameOf)
  }

  /** `instruction_fetch`: the instruction at `pc` (none past the end) and the PCB with `pc` advanced. */
  function InstructionFetch(pcb: Pcb): (r: (Option<Instruction>, Pcb))
    ensures r.1.pc == pcb.pc + 1
    ensures r.1 == pcb.(pc := r.1.pc)
    ensures r.0.Some? <==> pcb.pc < |pcb.instructions|
    ensures r.0.Some? ==> r.0.value == pcb.instructions[pcb.pc]
  {
    var ins := if pcb.pc < |pcb.instructions| then Some(pcb.instructions[pcb.pc]) else None;
    (ins, pcb.(pc := pcb.pc + 1))
  }

  /** `decode`: whether the instruction needs its operands fetched from Memory first. */
  predicate Decode(ins: Instruction)
  {
    ins.icode == Copy
  }

  /** `execute_READ`: the word stored at the translated address. */
  function ExecuteRead(cpu: Cpu, env: Env, words: Store, la: U32): U32
    requires cpu.Valid()
  {
    ReadWord(words, Translate(cpu, env, la))
  }

  /**
   The request `execute_WRITE` sends to Memory: the WT code (not WR), with
   the physical address and the value as an operands pair.
   */
  function WriteRequest(pa: U32, value: U32): (msg: Message)
    ensures msg.opcode == WT && msg.opcode != WR
    ensures |msg.payload| == 8 && DecodeOperands(msg.payload) == Operands(pa, value)
  {
    var o := Operands(pa, value);
    DecodeEncodeOperands(o);
    assert EncodeOperands(o)[..8] == EncodeOperands(o);
    Message(WT, EncodeOperands(o))
  }

  /**
   `execute_WRITE`: store `value` at the translated address. The word there
   reads back as the value; bytes outside it, and so every word sharing no
   byte with it, are unchanged (overlapping words do change).
   */
  function ExecuteWrite(cpu: Cpu, env: Env, words: Store, la: U32, value: U32): (w: Store)
    requires cpu.Valid()
    ensures ReadWord(w, Translate(cpu, env, la)) == value
    ensures forall a: nat :: !(Translate(cpu, env, la) <= a < Translate(cpu, env, la) + 4) ==> ByteAt(w, a) == ByteAt(words, a)
    ensures forall qa: nat :: qa + 4 <= Translate(cpu, env, la) || Translate(cpu, env, la) + 4 <= qa ==>
      ReadWord(w, qa) == ReadWord(words, qa)
  {
    var pa := Translate(cpu, env, la);
    var w := WriteWord(words, pa, value);
    forall qa: nat
      ensures qa + 4 <= pa || pa + 4 <= qa ==> ReadWord(w, qa) == ReadWord(words, qa)
    {
      WriteWordReads(words, pa, value, qa);
    }
    WriteWordReads(words, pa, value, pa);
    w
  }

  /** `execute_COPY(dst, src)`: read at `src`, write that value at `dst`, return it. */
  function ExecuteCopy(cpu: Cpu, env: Env, words: Store, dst: U32, src: U32): (r: (U32, Store))
    requires cpu.Valid()
    ensures r.0 == ReadWord(words, Translate(cpu, env, src))
    ensures ReadWord(r.1, Translate(cpu, env, dst)) == r.0
    ensures forall a: nat :: !(Translate(cpu, env, dst) <= a < Translate(cpu, env, dst) + 4) ==> ByteAt(r.1, a) == ByteAt(words, a)
    ensures forall qa: nat :: qa + 4 <= Translate(cpu, env, dst) || Translate(cpu, env, dst) + 4 <= qa ==>
      ReadWord(r.1, qa) == ReadWord(words, qa)
  {
    var v := ExecuteRead(cpu, env, words, src);
    (v, ExecuteWrite(cpu, env, words, dst, v))
  }

  /** `instruction_execute` for the PCB in `cpu`. */
  function InstructionExecute(ins: Instruction, cpu: Cpu, env: Env, words: Store): Executed
    requires cpu.Valid()
  {
    match ins.icode
    case NoOp => Executed(cpu.pcb, words, None, 0)
    case Io =>
      var p := cpu.pcb.(status := Blocked);
      Executed(p, words, Some(Returned(p, ins.param0)), 0)
    case Exit =>
      var p := cpu.pcb.(status := Terminated);
      Executed(p, words, Some(Returned(p, ins.param0)), 0)
    case Read => Executed(cpu.pcb, words, None, ExecuteRead(cpu, env, words, ins.param0))
    case Write => Executed(cpu.pcb, ExecuteWrite(cpu, env, words, ins.param0, ins.param1), None, 0)
    case Copy =>
      var (v, w) := ExecuteCopy(cpu, env, words, ins.param0, ins.param1);
      Executed(cpu.pcb, w, None, v)
    case Unknown(_) => Executed(cpu.pcb, words, None, 0)
  }

  /**
   What `instruction_execute` promises: only IO and EXIT return the PCB, with
   BLOCKED and TERMINATED respectively and the instruction's first parameter;
   only READ and COPY yield a non-zero result; only WRITE and COPY touch memory;
   no instruction changes anything of the PCB but its status.
   */
  lemma ExecuteEffects(ins: Instruction, cpu: Cpu, env: Env, words: Store)
    requires cpu.Valid()
    ensures var e := InstructionExecute(ins, cpu, env, words);
      && (e.returned.Some? <==> ins.icode in {Io, Exit})
      && (e.returned.Some? ==> e.returned.value == Returned(e.pcb, ins.param0))
      && (ins.icode == Io ==> e.pcb.status == Blocked)
      && (ins.icode == Exit ==> e.pcb.status == Terminated)
      && (ins.icode !in {Io, Exit} ==> e.pcb == cpu.pcb)
      && e.pcb == cpu.pcb.(status := e.pcb.status)
      && (ins.icode !in {Read, Copy} ==> e.value == 0)
      && (ins.icode == Read ==> e.value == ReadWord(words, Translate(cpu, env, ins.param0)))
      && (ins.icode !in {Write, Copy} ==> e.words == words)
  {
  }

  /** COPY reads at its second operand and stores that value at its first. */
  lemma CopySemantics(ins: Instruction, cpu: Cpu, env: Env, words: Store)
    requires cpu.Valid() && ins.icode == Copy
    ensures var e := InstructionExecute(ins, cpu, env, words);
      && e.value == ReadWord(words, Translate(cpu, env, ins.param1))
      && ReadWord(e.words, Translate(cpu, env, ins.param0)) == e.value
  {
  }

  /**
   `cycle`: with an interruption pending, mark the PCB READY, return it with
   parameter 0 and clear the flag; otherwise fetch, fetch operands for COPY
   (the reply overwrites the instruction's parameters inside the PCB's list),
   and execute.
   */
  function Cycle(cpu: Cpu, env: Env, words: Store): (r: Cycled)
    requires cpu.Valid()
    ensures r.cpu.Valid()
    ensures r.cpu.pageSize == cpu.pageSize && r.cpu.entries == cpu.entries
    ensures cpu.hasInterruption ==> r.cpu.pcb.pc == cpu.pcb.pc
    ensures !cpu.hasInterruption ==> r.cpu.pcb.pc == cpu.pcb.pc + 1
    ensures |r.cpu.pcb.instructions| == |cpu.pcb.instructions|
    ensures !r.cpu.hasInterruption
  {
    if cpu.hasInterruption then
      var p := cpu.pcb.(status := Ready);
      Cycled(cpu.(pcb := p, hasInterruption := false), words, Some(Returned(p, 0)))
    else
      var (fetched, p) := InstructionFetch(cpu.pcb);
      match fetched
      case None => Cycled(cpu.(pcb := p), words, None)
      case Some(ins) =>
        var ins' := if Decode(ins) then ins.(param0 := env.fetchedOperands.0, param1 := env.fetchedOperands.1) else ins;
        var p' := p.(instructions := p.instructions[cpu.pcb.pc := ins']);
        var e := InstructionExecute(ins', cpu.(pcb := p'), env, words);
        Cycled(cpu.(pcb := e.pcb), e.words, e.returned)
  }

  /** An interruption returns the PCB as READY without fetching, executing or touching memory. */
  lemma InterruptedCycle(cpu: Cpu, env: Env, words: Store)
    requires cpu.Valid() && cpu.hasInterruption
    ensures var r := Cycle(cpu, env, words);
      && r.cpu.pcb == cpu.pcb.(status := Ready)
      && r.returned == Some(Returned(r.cpu.pcb, 0))
      && r.words == words
  {
  }

  /**
   Without an interruption, a cycle on an instruction runs exactly that
   instruction; its status change and return are those of `instruction_execute`.
   */
  lemma UninterruptedCycle(cpu: Cpu, env: Env, words: Store)
    requires cpu.Valid() && !cpu.hasInterruption
    requires cpu.pcb.pc < |cpu.pcb.instructions|
    ensures var ins := cpu.pcb.instructions[cpu.pcb.pc];
      var r := Cycle(cpu, env, words);
      && (ins.icode == Io ==> r.cpu.pcb.status == Blocked && r.returned == Some(Returned(r.cpu.pcb, ins.param0)))
      && (ins.icode == Exit ==> r.cpu.pcb.status == Terminated && r.returned == Some(Returned(r.cpu.pcb, ins.param0)))
      && (ins.icode !in {Io, Exit} ==> r.cpu.pcb.status == cpu.pcb.status && r.returned.None?)
      && (ins.icode !in {Write, Copy} ==> r.words == words)
  {
    var ins := cpu.pcb.instructions[cpu.pcb.pc];
    var (fetched, p) := InstructionFetch(cpu.pcb);
    var ins' := if Decode(ins) then ins.(param0 := env.fetchedOperands.0, param1 := env.fetchedOperands.1) else ins;
    var p' := p.(instructions := p.instructions[cpu.pcb.pc := ins']);
    ExecuteEffects(ins', cpu.(pcb := p'), env, words);
  }
}

=== FILE: cpu_controller.dfy ===
/**
 The Memory unit's CPU-facing endpoints (memory/src/server/cpu_controller.c):
 the table-walk replies, the scans that find which table owns a frame or a
 Level-II table, the present-bit and quota checks, and the read/write paths
 with their page-fault handling.
 */
module CpuController {
  import opened Common
  import opened PageTable
  import opened OsMemory
  import opened Opcodes
  import opened Wire
  import SafeQueue

  // ---------------------------------------------------------------------------
  // Scans over the tables
  // ---------------------------------------------------------------------------

  /** `get_frame`: the frame a physical address falls in. */
  function GetFrame(m: Memory, pa: U32): (f: U32)
    requires m.pageSize > 0
    ensures f * m.pageSize <= pa < f * m.pageSize + m.pageSize
  {
    pa / m.pageSize
  }

  /**
   `get_table_lvl2_number`: the lowest Level-II table index with some row
   holding `frame`, or `UINT32_MAX` (the invalid-frame sentinel) if none does.
   */
  function GetTableLvl2Number(m: Memory, frame: U32): (r: U32)
    requires m.Valid()
    ensures r == UINT32_MAX <==> forall i :: 0 <= i < |m.tablesLvl2| ==> !HoldsFrame(m.tablesLvl2[i], frame)
    ensures r != UINT32_MAX ==> r < |m.tablesLvl2| && HoldsFrame(m.tablesLvl2[r], frame)
    ensures r != UINT32_MAX ==> forall i :: 0 <= i < r ==> !HoldsFrame(m.tablesLvl2[i], frame)
  {
    match SafeQueue.FirstIndex(m.tablesLvl2, (t: seq<L2Row>) => HoldsFrame(t, frame))
    case None => UINT32_MAX
    case Some(i) => i
  }

  /**
   `frame_is_present`: the present bit of the first row of table `table2`
   holding `frame`; false when no row holds it.
   */
  function FrameIsPresent(m: Memory, table2: U32, frame: U32): (r: bool)
    requires m.Valid() && table2 < |m.tablesLvl2|
    ensures r <==> exists j :: (0 <= j < |m.tablesLvl2[table2]|
      && m.tablesLvl2[table2][j].frame == frame && m.tablesLvl2[table2][j].present
      && forall k :: 0 <= k < j ==> m.tablesLvl2[table2][k].frame != frame)
  {
    var t := m.tablesLvl2[table2];
    match FirstRowWithFrame(t, frame)
    case None => false
    case Some(j) => t[j].present
  }

  /** Whether a Level-I slot is a live table with a row naming Level-II table `table2`. */
  predicate Owns(slot: Option<seq<L1Row>>, table2: U32)
  {
    slot.Some? && References(slot.value, table2)
  }

  /**
   `get_table_lvl1_number`, corrected: the lowest live Level-I table with a
   row naming Level-II table `table2`, scanning every Level-I table; else
   `UINT32_MAX`.
   */
  function GetTableLvl1Number(m: Memory, table2: U32): (r: U32)
    requires m.Valid()
    ensures r == UINT32_MAX <==> forall i :: 0 <= i < |m.tablesLvl1| ==> !Owns(m.tablesLvl1[i], table2)
    ensures r != UINT32_MAX ==> r < |m.tablesLvl1| && Owns(m.tablesLvl1[r], table2)
    ensures r != UINT32_MAX ==> forall i :: 0 <= i < r ==> !Owns(m.tablesLvl1[i], table2)
  {
    match SafeQueue.FirstIndex(m.tablesLvl1, (slot: Option<seq<L1Row>>) => Owns(slot, table2))
    case None => UINT32_MAX
    case Some(i) => i
  }

  /**
   `get_table_lvl1_number` as written: it indexes the Level-I list but takes
   its loop bound from the Level-II list. Defined where the C code stays in
   bounds: at most as many Level-II tables as Level-I ones, all scanned ones live.
   */
  function GetTableLvl1NumberAsWritten(m: Memory, table2: U32): (r: U32)
    requires m.Valid() && |m.tablesLvl2| <= |m.tablesLvl1|
    requires forall i :: 0 <= i < |m.tablesLvl2| ==> m.tablesLvl1[i].Some?
    ensures r == UINT32_MAX <==> forall i :: 0 <= i < |m.tablesLvl2| ==> !Owns(m.tablesLvl1[i], table2)
    ensures r != UINT32_MAX ==> r < |m.tablesLvl2| && Owns(m.tablesLvl1[r], table2)
    ensures r != UINT32_MAX ==> forall i :: 0 <= i < r ==> !Owns(m.tablesLvl1[i], table2)
  {
    var scanned := m.tablesLvl1[..|m.tablesLvl2|];
    match SafeQueue.FirstIndex(scanned, (slot: Option<seq<L1Row>>) => Owns(slot, table2))
    case None => UINT32_MAX
    case Some(i) => i
  }

  /**
   With two processes and one Level-II table owned by the second process, the
   scan as written stops after one Level-I table and reports no owner; the
   corrected scan finds table 1.
   */
  lemma Lvl1ScanBoundMissesOwner()
    ensures
      var m := Memory(64, 1, 1, [Some([L1Row(UINT32_MAX)]), Some([L1Row(0)])],
                      [[L2Row(5, false, false, false)]], [], [], map[]);
      && m.Valid()
      && GetTableLvl1NumberAsWritten(m, 0) == UINT32_MAX
      && GetTableLvl1Number(m, 0) == 1
  {
    var m := Memory(64, 1, 1, [Some([L1Row(UINT32_MAX)]), Some([L1Row(0)])],
                    [[L2Row(5, false, false, false)]], [], [], map[]);
    assert !Owns(m.tablesLvl1[0], 0);
    assert Owns(m.tablesLvl1[1], 0) by {
      assert m.tablesLvl1[1].value[0].secondPage == 0;
    }
  }

  /**
   The rows `should_replace_frame` counts for a Level-I table, as pairs: row
   `i` of the Level-I table names an existing Level-II table whose row `j` is
   present.
   */
  function PresentPairs(m: Memory, t1: seq<L1Row>): set<(nat, nat)>
  {
    set i, j | 0 <= i < |t1| && t1[i].secondPage < |m.tablesLvl2|
                && 0 <= j < |m.tablesLvl2[t1[i].secondPage]|
                && m.tablesLvl2[t1[i].secondPage][j].present :: (i, j)
  }

  /** The present rows of one Level-II table, tagged with the Level-I row `i` that names it. */
  function RowPairs(i: nat, t: seq<L2Row>): set<(nat, nat)>
  {
    set j | 0 <= j < |t| && t[j].present :: (i, j)
  }

  /** Present rows across the Level-II tables a Level-I table names (unset or dangling rows add nothing). */
  function OwnedPresentCount(m: Memory, t1: seq<L1Row>): (n: nat)
    ensures n == |PresentPairs(m, t1)|
  {
    if |t1| == 0 then
      assert PresentPairs(m, t1) == {};
      0
    else
      var k := |t1| - 1;
      var sp := t1[k].secondPage;
      var own := if sp < |m.tablesLvl2| then RowPairsCount(k, m.tablesLvl2[sp]); PresentCount(m.tablesLvl2[sp]) else 0;
      PairsSplitLast(m, t1);
      OwnedPresentCount(m, t1[..k]) + own
  }

  /** The pairs of a Level-I table are those of all rows but the last, plus the last row's. */
  lemma PairsSplitLast(m: Memory, t1: seq<L1Row>)
    requires |t1| > 0
    ensures var k := |t1| - 1;
      var sp := t1[k].secondPage;
      var last := if sp < |m.tablesLvl2| then RowPairs(k, m.tablesLvl2[sp]) else {};
      && PresentPairs(m, t1) == PresentPairs(m, t1[..k]) + last
      && PresentPairs(m, t1[..k]) !! last
  {
    var k := |t1| - 1;
    var sp := t1[k].secondPage;
    var last := if sp < |m.tablesLvl2| then RowPairs(k, m.tablesLvl2[sp]) else {};
    forall p | p in PresentPairs(m, t1)
      ensures p in PresentPairs(m, t1[..k]) + last
    {
      var (i, j) := p;
      if i < k {
        assert t1[..k][i] == t1[i];
      }
    }
    forall p | p in PresentPairs(m, t1[..k])
      ensures p in PresentPairs(m, t1) && p !in last
    {
      var (i, j) := p;
      assert t1[..k][i] == t1[i];
    }
  }

  /** A table's tagged present rows number its present count. */
  lemma {:induction false} RowPairsCount(i: nat, t: seq<L2Row>)
    ensures |RowPairs(i, t)| == PresentCount(t)
    decreases |t|
  {
    if |t| > 0 {
      var k := |t| - 1;
      var u := t[..k];
      RowPairsCount(i, u);
      var mine := if t[k].present then {(i, k)} else {};
      assert RowPairs(i, t) == RowPairs(i, u) + mine by {
        forall p | p in RowPairs(i, t)
          ensures p in RowPairs(i, u) + mine
        {
          var (_, j) := p;
          if j < k {
            assert u[j] == t[j];
          }
        }
        forall p | p in RowPairs(i, u)
          ensures p in RowPairs(i, t)
        {
          var (_, j) := p;
          assert u[j] == t[j];
        }
      }
      assert (i, k) !in RowPairs(i, u);
    } else {
      assert RowPairs(i, t) == {};
    }
  }

  /** A Level-I table that names no Level-II table owns no present row. */
  lemma {:induction false} UnsetTableCountsNothing(m: Memory, t1: seq<L1Row>)
    requires forall i :: 0 <= i < |t1| ==> t1[i].secondPage >= |m.tablesLvl2|
    ensures OwnedPresentCount(m, t1) == 0
  {
    if |t1| > 0 {
      UnsetTableCountsNothing(m, t1[..|t1| - 1]);
    }
  }

  /**
   `should_replace_frame`: whether the process owning Level-II table `table2`
   (the first live Level-I table naming it) already has at least the
   frames-per-process quota of present rows across the Level-II tables it
   names. Uses the corrected owner scan; a table with no owner counts as
   holding none.
   */
  function ShouldReplaceFrame(m: Memory, table2: U32): (r: bool)
    requires m.Valid()
    ensures (forall i :: 0 <= i < |m.tablesLvl1| ==> !Owns(m.tablesLvl1[i], table2)) ==>
      (r <==> m.framesPerProcess == 0)
    ensures forall i :: 0 <= i < |m.tablesLvl1| && Owns(m.tablesLvl1[i], table2)
                        && (forall k :: 0 <= k < i ==> !Owns(m.tablesLvl1[k], table2)) ==>
      (r <==> |PresentPairs(m, m.tablesLvl1[i].value)| >= m.framesPerProcess)
  {
    var owner := GetTableLvl1Number(m, table2);
    var count := if owner == UINT32_MAX then 0 else OwnedPresentCount(m, m.tablesLvl1[owner].value);
    count >= m.framesPerProcess
  }

  /** Marking rows present (and nothing else) keeps every table's present rows and adds none elsewhere. */
  predicate PresentGrows(m: Memory, m': Memory)
  {
    && m'.tablesLvl1 == m.tablesLvl1
    && |m'.tablesLvl2| == |m.tablesLvl2|
    && (forall i :: 0 <= i < |m.tablesLvl2| ==> |m'.tablesLvl2[i]| == |m.tablesLvl2[i]|)
    && (forall i, j :: 0 <= i < |m.tablesLvl2| && 0 <= j < |m.tablesLvl2[i]| && m.tablesLvl2[i][j].present ==>
          m'.tablesLvl2[i][j].present)
  }

  /** Present pairs only accumulate while rows are only ever marked present. */
  lemma PresentPairsGrow(m: Memory, m': Memory, t1: seq<L1Row>)
    requires PresentGrows(m, m')
    ensures PresentPairs(m, t1) <= PresentPairs(m', t1)
  {
    forall p | p in PresentPairs(m, t1)
      ensures p in PresentPairs(m', t1)
    {
      var (i, j) := p;
      var sp := t1[i].secondPage;
      assert m.tablesLvl2[sp][j].present;
    }
  }

  /**
   Once the process owning a Level-II table has reached its quota, it stays
   there while page faults only mark rows present: no frame is ever released.
   */
  lemma QuotaStaysReached(m: Memory, m': Memory, table2: U32)
    requires m.Valid() && m'.Valid() && PresentGrows(m, m')
    requires m'.framesPerProcess == m.framesPerProcess
    ensures ShouldReplaceFrame(m, table2) ==> ShouldReplaceFrame(m', table2)
  {
    var owner := GetTableLvl1Number(m, table2);
    assert GetTableLvl1Number(m', table2) == owner by {
      assert m'.tablesLvl1 == m.tablesLvl1;
    }
    if owner != UINT32_MAX {
      var t1 := m.tablesLvl1[owner].value;
      var a, b := PresentPairs(m, t1), PresentPairs(m', t1);
      PresentPairsGrow(m, m', t1);
      assert b == a + (b - a) && a !! (b - a);
      assert OwnedPresentCount(m, t1) <= OwnedPresentCount(m', t1);
    }
  }

  // ---------------------------------------------------------------------------
  // Table-walk endpoints
  // ---------------------------------------------------------------------------

  /** Whether Level-I id `table1` names a live table (`list_get` gives NULL otherwise). */
  predicate LiveLvl1(m: Memory, table1: U32)
  {
    table1 < |m.tablesLvl1| && m.tablesLvl1[table1].Some?
  }

  /**
   `obtain_second_page` as written: the table is looked up first but only
   dereferenced after the guard, which rejects only `index > max_rows`; so
   `index == max_rows` reads one row past the table (`None` here). The
   caller must name a live table wherever the table is dereferenced.
   */
  function ObtainSecondPageAsWritten(m: Memory, table1: U32, index: U32): (r: Option<U32>)
    requires m.Valid() && (index <= m.maxRows ==> LiveLvl1(m, table1))
    ensures r.None? <==> index == m.maxRows
    ensures index > m.maxRows ==> r == Some(UINT32_MAX)
    ensures index < m.maxRows ==> r == Some(m.tablesLvl1[table1].value[index].secondPage)
  {
    if index > m.maxRows then Some(UINT32_MAX)
    else if index < m.maxRows then Some(m.tablesLvl1[table1].value[index].secondPage)
    else None
  }

  /**
   `obtain_second_page`, corrected: `UINT32_MAX` for any index outside the
   table, whatever the table id; else the stored entry.
   */
  function ObtainSecondPage(m: Memory, table1: U32, index: U32): (r: U32)
    requires m.Valid() && (index < m.maxRows ==> LiveLvl1(m, table1))
    ensures index >= m.maxRows ==> r == UINT32_MAX
    ensures index < m.maxRows ==> r == m.tablesLvl1[table1].value[index].secondPage
  {
    if index >= m.maxRows then UINT32_MAX else m.tablesLvl1[table1].value[index].secondPage
  }

  /** `obtain_frame` as written: same off-by-one as `obtain_second_page`. */
  function ObtainFrameAsWritten(m: Memory, table2: U32, index: U32): (r: Option<U32>)
    requires m.Valid() && (index <= m.maxRows ==> table2 < |m.tablesLvl2|)
    ensures r.None? <==> index == m.maxRows
    ensures index > m.maxRows ==> r == Some(UINT32_MAX)
    ensures index < m.maxRows ==> r == Some(m.tablesLvl2[table2][index].frame)
  {
    if index > m.maxRows then Some(UINT32_MAX)
    else if index < m.maxRows then Some(m.tablesLvl2[table2][index].frame)
    else None
  }

  /** `obtain_frame`, corrected: `UINT32_MAX` for any index outside the table, whatever the table id; else the stored frame. */
  function ObtainFrame(m: Memory, table2: U32, index: U32): (r: U32)
    requires m.Valid() && (index < m.maxRows ==> table2 < |m.tablesLvl2|)
    ensures index >= m.maxRows ==> r == UINT32_MAX
    ensures index < m.maxRows ==> r == m.tablesLvl2[table2][index].frame
  {
    if index >= m.maxRows then UINT32_MAX else m.tablesLvl2[table2][index].frame
  }

  /**
   The guards as written let exactly one out-of-range index through, and
   everywhere else they agree with the corrected lookups.
   */
  lemma GuardsAdmitOnePastEnd(m: Memory, table1: U32, table2: U32, index: U32)
    requires m.Valid() && (index <= m.maxRows ==> LiveLvl1(m, table1) && table2 < |m.tablesLvl2|)
    ensures index != m.maxRows ==> ObtainSecondPageAsWritten(m, table1, index) == Some(ObtainSecondPage(m, table1, index))
    ensures index != m.maxRows ==> ObtainFrameAsWritten(m, table2, index) == Some(ObtainFrame(m, table2, index))
    ensures index == m.maxRows ==> index >= |m.tablesLvl1[table1].value| && index >= |m.tablesLvl2[table2]|
  {
  }

  /**
   Whether a table-walk request for a Level-I entry can be served: empty, or
   eight bytes or more whose table id names a live table wherever the
   corrected lookup dereferences it.
   */
  predicate SecondPageRequestOk(m: Memory, request: seq<Byte>)
    requires m.Valid()
  {
    |request| == 0 ||
    (|request| >= 8
     && (DecodeOperands(request).op2 < m.maxRows ==> LiveLvl1(m, DecodeOperands(request).op1)))
  }

  /**
   `cpu_controller_send_page_second_level`: the value sent back. A request
   stream with no bytes gets `UINT32_MAX`; otherwise the operands name a
   Level-I table and an index, and an index outside the table gets
   `UINT32_MAX` whatever table is named.
   */
  function SendPageSecondLevel(m: Memory, request: seq<Byte>): (reply: U32)
    requires m.Valid() && SecondPageRequestOk(m, request)
    ensures |request| == 0 ==> reply == UINT32_MAX
    ensures |request| > 0 && DecodeOperands(request).op2 >= m.maxRows ==> reply == UINT32_MAX
    ensures |request| > 0 && DecodeOperands(request).op2 < m.maxRows ==>
      reply == m.tablesLvl1[DecodeOperands(request).op1].value[DecodeOperands(request).op2].secondPage
  {
    if |request| == 0 then UINT32_MAX
    else
      var o := DecodeOperands(request);
      ObtainSecondPage(m, o.op1, o.op2)
  }

  /** Whether a frame request can be served: as above, for a Level-II table id. */
  predicate FrameRequestOk(m: Memory, request: seq<Byte>)
    requires m.Valid()
  {
    |request| == 0 ||
    (|request| >= 8
     && (DecodeOperands(request).op2 < m.maxRows ==> DecodeOperands(request).op1 < |m.tablesLvl2|))
  }

  /** `cpu_controller_send_frame`: as above, for a Level-II table and index. */
  function SendFrame(m: Memory, request: seq<Byte>): (reply: U32)
    requires m.Valid() && FrameRequestOk(m, request)
    ensures |request| == 0 ==> reply == UINT32_MAX
    ensures |request| > 0 && DecodeOperands(request).op2 >= m.maxRows ==> reply == UINT32_MAX
    ensures |request| > 0 && DecodeOperands(request).op2 < m.maxRows ==>
      reply == m.tablesLvl2[DecodeOperands(request).op1][DecodeOperands(request).op2].frame
  {
    if |request| == 0 then UINT32_MAX
    else
      var o := DecodeOperands(request);
      ObtainFrame(m, o.op1, o.op2)
  }

  // ---------------------------------------------------------------------------
  // Read and write paths
  // ---------------------------------------------------------------------------

  /**
   Outcome of a read or write request: abandoned without reply when the frame
   is in no table; otherwise the new memory, the reply (reads only), and what
   the replacement check said on a page fault (the check has no effect).
   */
  datatype Access = Abandoned | Served(memory: Memory, reply: Option<Message>, replacementRequired: bool)

  /**
   The page-fault step shared by both paths: if the frame's row in `table2`
   is not present, consult the quota and mark the row present.
   */
  function FaultIn(m: Memory, table2: U32, frame: U32): (r: (Memory, bool))
    requires m.Valid() && table2 < |m.tablesLvl2| && HoldsFrame(m.tablesLvl2[table2], frame)
    ensures r.0.Valid()
    ensures |r.0.tablesLvl2| == |m.tablesLvl2|
    ensures FrameIsPresent(r.0, table2, frame)
    ensures r.0 == m.(tablesLvl2 := r.0.tablesLvl2)
    ensures FrameIsPresent(m, table2, frame) ==> r.0 == m && !r.1
    ensures !FrameIsPresent(m, table2, frame) ==>
      && r.1 == ShouldReplaceFrame(m, table2)
      && PresentCount(r.0.tablesLvl2[table2]) == PresentCount(m.tablesLvl2[table2]) + 1
    ensures forall i :: 0 <= i < |m.tablesLvl2| && i != table2 ==> r.0.tablesLvl2[i] == m.tablesLvl2[i]
    ensures !FrameIsPresent(m, table2, frame) ==>
      var t := m.tablesLvl2[table2];
      var j := FirstRowWithFrame(t, frame).value;
      r.0.tablesLvl2[table2] == t[j := t[j].(present := true)]
    ensures PresentGrows(m, r.0)
  {
    if FrameIsPresent(m, table2, frame) then (m, false)
    else
      var replace := ShouldReplaceFrame(m, table2);
      var (m', j) := CreateFrameForTable(m, table2, frame);
      var t := m.tablesLvl2[table2];
      var t' := t[j := t[j].(present := true)];
      assert m'.tablesLvl2[table2] == t';
      FirstRowAfterMark(t, j as nat, frame);
      MarkPresentCount(t, j as nat);
      (m', replace)
  }

  /** Marking the first row of a frame present leaves it the first row of that frame. */
  lemma FirstRowAfterMark(t: seq<L2Row>, j: nat, frame: U32)
    requires FirstRowWithFrame(t, frame) == Some(j)
    ensures FirstRowWithFrame(t[j := t[j].(present := true)], frame) == Some(j)
  {
    var t' := t[j := t[j].(present := true)];
    var r := FirstRowWithFrame(t', frame);
    assert t'[j].frame == frame;
    assert forall k :: 0 <= k < |t'| ==> t'[k].frame == t[k].frame;
  }

  /**
   The Level-II tables after a served access to `frame` in `table2`: the frame
   is present there; if it already was, no table changed, and otherwise only
   the first row of `table2` holding the frame was marked present.
   */
  predicate TablesAfterAccess(m: Memory, m': Memory, table2: U32, frame: U32)
    requires m.Valid() && m'.Valid() && table2 < |m.tablesLvl2| && |m'.tablesLvl2| == |m.tablesLvl2|
  {
    && FrameIsPresent(m', table2, frame)
    && (forall i :: 0 <= i < |m.tablesLvl2| && i != table2 ==> m'.tablesLvl2[i] == m.tablesLvl2[i])
    && (FrameIsPresent(m, table2, frame) ==> m'.tablesLvl2 == m.tablesLvl2)
    && (!FrameIsPresent(m, table2, frame) ==>
          var t := m.tablesLvl2[table2];
          match FirstRowWithFrame(t, frame)
          case None => false
          case Some(j) => m'.tablesLvl2[table2] == t[j := t[j].(present := true)])
  }

  /**
   `cpu_controller_read`: find the table holding the frame (abandon if none),
   fault the frame in if needed, and reply under RD with the stored word.
   */
  function ControllerRead(m: Memory, pa: U32): (r: Access)
    requires m.Valid() && pa + 4 <= |m.bytes|
    ensures r.Abandoned? <==> GetTableLvl2Number(m, GetFrame(m, pa)) == UINT32_MAX
    ensures r.Served? ==>
      && r.memory.Valid()
      && r.memory.bytes == m.bytes
      && |r.memory.tablesLvl2| == |m.tablesLvl2|
      && r.reply == Some(Message(RD, EncodeU32(ReadFromMemory(m, pa))))
      && r.memory == m.(tablesLvl2 := r.memory.tablesLvl2)
      && TablesAfterAccess(m, r.memory, GetTableLvl2Number(m, GetFrame(m, pa)), GetFrame(m, pa))
      && r.replacementRequired == (!FrameIsPresent(m, GetTableLvl2Number(m, GetFrame(m, pa)), GetFrame(m, pa))
                                   && ShouldReplaceFrame(m, GetTableLvl2Number(m, GetFrame(m, pa))))
  {
    var frame := GetFrame(m, pa);
    var table2 := GetTableLvl2Number(m, frame);
    if table2 == UINT32_MAX then Abandoned
    else
      var (m', replace) := FaultIn(m, table2, frame);
      Served(m', Some(Message(RD, EncodeU32(ReadFromMemory(m', pa)))), replace)
  }

  /**
   `cpu_controller_write`: as the read path, then store the value; no reply is
   sent, and a write to an already-present frame does not set its modified bit.
   */
  function ControllerWrite(m: Memory, pa: U32, value: U32): (r: Access)
    requires m.Valid() && pa + 4 <= |m.bytes|
    ensures r.Abandoned? <==> GetTableLvl2Number(m, GetFrame(m, pa)) == UINT32_MAX
    ensures r.Served? ==>
      && r.memory.Valid()
      && r.reply.None?
      && |r.memory.bytes| == |m.bytes|
      && |r.memory.tablesLvl2| == |m.tablesLvl2|
      && ReadFromMemory(r.memory, pa) == value
      && (forall qa: nat :: qa + 4 <= |m.bytes| && (qa + 4 <= pa || pa + 4 <= qa) ==>
            ReadFromMemory(r.memory, qa) == ReadFromMemory(m, qa))
      && r.memory.bytes[pa..pa + 4] == EncodeU32(value)
      && (forall b :: 0 <= b < |m.bytes| && !(pa <= b < pa + 4) ==> r.memory.bytes[b] == m.bytes[b])
      && r.memory == m.(tablesLvl2 := r.memory.tablesLvl2, bytes := r.memory.bytes)
      && TablesAfterAccess(m, r.memory, GetTableLvl2Number(m, GetFrame(m, pa)), GetFrame(m, pa))
      && r.replacementRequired == (!FrameIsPresent(m, GetTableLvl2Number(m, GetFrame(m, pa)), GetFrame(m, pa))
                                   && ShouldReplaceFrame(m, GetTableLvl2Number(m, GetFrame(m, pa))))
  {
    var frame := GetFrame(m, pa);
    var table2 := GetTableLvl2Number(m, frame);
    if table2 == UINT32_MAX then Abandoned
    else
      var (m', replace) := FaultIn(m, table2, frame);
      var m'' := WriteInMemory(m', pa, value);
      ReadAfterWrite(m', pa, value);
      forall qa: nat | qa + 4 <= |m.bytes| && (qa + 4 <= pa || pa + 4 <= qa)
        ensures ReadFromMemory(m'', qa) == ReadFromMemory(m, qa)
      {
        WriteLeavesOtherWords(m', pa, value, qa);
      }
      Served(m'', None, replace)
  }
}

=== FILE: kernel_controller.dfy ===
/**
 The Memory unit's Kernel-facing endpoints (memory/src/server/kernel_controller.c):
 process initialisation, process teardown, and the outcome of writing a PCB
 to its swap file and reading it back.

 File-system calls are oracles: whether `open` succeeded, whether `mmap`
 failed, whether `fstat` succeeded. PCB streams are opaque bytes; the pid a
 stream carries is passed alongside it.
 */
module KernelController {
  import opened Common
  import opened Opcodes
  import opened Wire
  import opened OsMemory
  import SafeQueue

  /** A file of `n` zero bytes (what `create_file(pid, size)` leaves behind). */
  function Zeros(n: nat): (z: seq<Byte>)
    ensures |z| == n && forall i :: 0 <= i < n ==> z[i] == 0
  {
    seq(n, _ => 0)
  }

  /** The result of `kernel_controller_memory_init`: the new memory state and the reply, if any. */
  datatype Init = Init(memory: Memory, reply: Option<Message>)

  /**
   `kernel_controller_memory_init`. An empty request stream ends the call with
   no effect and no reply. Otherwise the operands give the pid and the size:
   a swap record (pid, size) is appended, a zero-filled swap file of that size
   is created, a fresh Level-I table is allocated, and its id is sent back
   under MEMORY_INIT.
   */
  function MemoryInit(m: Memory, request: seq<Byte>): (r: Init)
    requires m.Valid() && |m.tablesLvl1| + 1 < UINT32_MAX
    requires |request| == 0 || |request| >= 8
    ensures r.memory.Valid()
    ensures |request| == 0 ==> r == Init(m, None)
    ensures |request| > 0 ==>
      var o := DecodeOperands(request);
      && r.memory.swapData == m.swapData + [SwapData(o.op1, o.op2)]
      && r.memory.swapFiles == m.swapFiles[o.op1 := Zeros(o.op2)]
      && |r.memory.tablesLvl1| == |m.tablesLvl1| + 1
      && r.memory.tablesLvl1[..|m.tablesLvl1|] == m.tablesLvl1
      && r.memory.tablesLvl1[|m.tablesLvl1|] == Some(PageTable.NewPageTable(m.maxRows))
      && r.memory.tablesLvl2 == m.tablesLvl2
      && r.memory.bytes == m.bytes
      && r.reply == Some(Message(MEMORY_INIT, EncodeU32(|m.tablesLvl1|)))
  {
    if |request| == 0 then Init(m, None)
    else
      var o := DecodeOperands(request);
      var m1 := m.(swapData := m.swapData + [SwapData(o.op1, o.op2)],
                   swapFiles := m.swapFiles[o.op1 := Zeros(o.op2)]);
      var (m2, table) := CreateNewProcess(m1);
      Init(m2, Some(Message(MEMORY_INIT, EncodeU32(table))))
  }

  /** The (pid, Level-I table id) a PROCESS_TERMINATED payload names: bytes 0..4, then 4..8. */
  function DestroyTarget(payload: seq<Byte>): (r: (U32, U32))
    requires |payload| >= 8
    ensures EncodeU32(r.0) == payload[..4] && EncodeU32(r.1) == payload[4..8]
  {
    EncodeDecodeU32(payload[..4]);
    EncodeDecodeU32(payload[4..8]);
    (DecodeU32(payload[..4]), DecodeU32(payload[4..8]))
  }

  /**
   `kernel_controller_destroy_process_file`: release the Level-I table, delete
   the pid's swap file and its swap record; nothing else changes.
   */
  function DestroyProcessFile(m: Memory, payload: seq<Byte>): (r: Memory)
    requires m.Valid() && |payload| >= 8
    ensures r.Valid()
    ensures var (pid, table) := DestroyTarget(payload);
      && |r.tablesLvl1| == |m.tablesLvl1|
      && (table < |m.tablesLvl1| ==> r.tablesLvl1[table].None?)
      && (forall i :: 0 <= i < |m.tablesLvl1| && i != table ==> r.tablesLvl1[i] == m.tablesLvl1[i])
      && pid !in r.swapFiles
      && (forall q :: q in m.swapFiles && q != pid ==> q in r.swapFiles && r.swapFiles[q] == m.swapFiles[q])
      && r.swapFiles.Keys <= m.swapFiles.Keys
      && (forall d :: d in m.swapData && d.pid != pid ==> multiset(r.swapData)[d] == multiset(m.swapData)[d])
      && (forall k :: 0 <= k < |m.swapData| && m.swapData[k].pid == pid
                      && (forall i :: 0 <= i < k ==> m.swapData[i].pid != pid) ==>
            r.swapData == m.swapData[..k] + m.swapData[k + 1..])
      && ((forall i :: 0 <= i < |m.swapData| ==> m.swapData[i].pid != pid) ==> r.swapData == m.swapData)
      && r.tablesLvl2 == m.tablesLvl2 && r.bytes == m.bytes
  {
    var (pid, table) := DestroyTarget(payload);
    var m1 := DeleteProcess(m, table);
    var m2 := m1.(swapFiles := m1.swapFiles - {pid});
    DeleteSwapData(m2, pid)
  }

  /** Tearing the same process down twice leaves it as once, when the pid had at most one swap record. */
  lemma DestroyProcessFileIdempotent(m: Memory, payload: seq<Byte>)
    requires m.Valid() && |payload| >= 8
    requires var pid := DestroyTarget(payload).0;
      forall i, j :: 0 <= i < j < |m.swapData| ==> !(m.swapData[i].pid == pid && m.swapData[j].pid == pid)
    ensures DestroyProcessFile(DestroyProcessFile(m, payload), payload) == DestroyProcessFile(m, payload)
  {
    var (pid, table) := DestroyTarget(payload);
    var m1 := DeleteProcess(m, table);
    var m2 := m1.(swapFiles := m1.swapFiles - {pid});
    DeleteProcessIdempotent(m, table);
    DeleteSwapDataClears(m2, pid);
  }

  /**
   Process initialisation followed by teardown with the pid and the table id
   handed out: the table slot is released, the pid keeps no swap file, and
   the swap records are as before (when the pid had none).
   */
  lemma InitThenDestroy(m: Memory, request: seq<Byte>)
    requires m.Valid() && |m.tablesLvl1| + 1 < UINT32_MAX && |request| >= 8
    requires forall i :: 0 <= i < |m.swapData| ==> m.swapData[i].pid != DecodeOperands(request).op1
    ensures var init := MemoryInit(m, request);
      var o := DecodeOperands(request);
      var teardown := EncodeU32(o.op1) + init.reply.value.payload;
      var r := DestroyProcessFile(init.memory, teardown);
      && r.swapData == m.swapData
      && o.op1 !in r.swapFiles
      && |r.tablesLvl1| == |m.tablesLvl1| + 1
      && r.tablesLvl1[|m.tablesLvl1|].None?
      && r.tablesLvl1[..|m.tablesLvl1|] == m.tablesLvl1
  {
    var init := MemoryInit(m, request);
    var o := DecodeOperands(request);
    var teardown := EncodeU32(o.op1) + init.reply.value.payload;
    assert teardown[..4] == EncodeU32(o.op1);
    assert teardown[4..8] == EncodeU32(|m.tablesLvl1|);
    EncodeU32Injective(DestroyTarget(teardown).0, o.op1);
    EncodeU32Injective(DestroyTarget(teardown).1, |m.tablesLvl1|);
    var pid := o.op1;
    var s := init.memory.swapData;
    assert s == m.swapData + [SwapData(pid, o.op2)];
    var p := (d: SwapData) => d.pid == pid;
    var (found, rest) := SafeQueue.RemoveBy(s, p);
    assert p(s[|m.swapData|]);
    var i :| 0 <= i < |s| && s[i] == found.value && rest == s[..i] + s[i + 1..]
              && forall k :: 0 <= k < i ==> !p(s[k]);
    assert i == |m.swapData|;
    assert rest == m.swapData;
    var r := DestroyProcessFile(init.memory, teardown);
    assert r.tablesLvl1[..|m.tablesLvl1|] == m.tablesLvl1;
  }

  /** Outcome of `swap_pcb_`. */
  datatype Status = Success | Error

  /** What `ftruncate` leaves in a file: the first `n` bytes, padded with zeros. */
  function Resize(content: seq<Byte>, n: nat): (r: seq<Byte>)
    ensures |r| == n
    ensures forall i :: 0 <= i < n ==> r[i] == (if i < |content| then content[i] else 0)
  {
    if n <= |content| then content[..n] else content + Zeros(n - |content|)
  }

  /**
   `swap_pcb_` (and `kernel_controller_swap`, which only calls it) for a PCB
   stream whose pid is `pid`. If the file does not open: ERROR and no file
   changes. If it opens, it is first resized to the stream's length; a failed
   mapping then gives ERROR with the file left resized, and otherwise the
   file holds exactly the stream and the status is SUCCESS.
   */
  function SwapPcb(files: map<U32, seq<Byte>>, pid: U32, stream: seq<Byte>, openOk: bool, mapFailed: bool)
    : (r: (Status, map<U32, seq<Byte>>))
    ensures r.0 == Success <==> openOk && !mapFailed
    ensures !openOk ==> r.1 == files
    ensures r.0 == Success ==> r.1 == files[pid := stream]
    ensures openOk ==> pid in r.1 && |r.1[pid]| == |stream|
    ensures forall q :: q != pid ==> (q in r.1 <==> q in files) && (q in files ==> r.1[q] == files[q])
  {
    if !openOk then (Error, files)
    else
      var old_ := if pid in files then files[pid] else [];
      var resized := files[pid := Resize(old_, |stream|)];
      if mapFailed then (Error, resized)
      else (Success, files[pid := stream])
  }

  /**
   `retrieve_swapped_pcb`: the stream stored in the pid's swap file; nothing
   when the file is missing, does not open, or cannot be inspected.
   */
  function RetrieveSwappedPcb(files: map<U32, seq<Byte>>, pid: U32, openOk: bool, statOk: bool): (r: Option<seq<Byte>>)
    ensures r.Some? <==> pid in files && openOk && statOk
    ensures r.Some? ==> r.value == files[pid]
  {
    if pid in files && openOk && statOk then Some(files[pid]) else None
  }

  /** A successful swap-out is read back byte for byte, and leaves every other pid's file readable as before. */
  lemma SwapThenRetrieve(files: map<U32, seq<Byte>>, pid: U32, stream: seq<Byte>, other: U32)
    requires other != pid
    ensures var (status, files') := SwapPcb(files, pid, stream, true, false);
      && status == Success
      && RetrieveSwappedPcb(files', pid, true, true) == Some(stream)
      && RetrieveSwappedPcb(files', other, true, true) == RetrieveSwappedPcb(files, other, true, true)
  {
  }

  /** Once a process is torn down its PCB can no longer be retrieved, whatever the file-system oracles say. */
  lemma DestroyedPcbIsGone(m: Memory, payload: seq<Byte>, openOk: bool, statOk: bool)
    requires m.Valid() && |payload| >= 8
    ensures RetrieveSwappedPcb(DestroyProcessFile(m, payload).swapFiles, DestroyTarget(payload).0, openOk, statOk).None?
  {
  }
}

=== FILE: lts.dfy ===
/**
 The long-term scheduler (kernel/src/scheduling/lts.c): admission of one
 process into READY per admission request and free multiprogramming slot.

 `resume` (the medium-term scheduler) is an oracle: the suspended PCB it
 hands back, if any. The Memory connection is either down, or up with the
 reply to the MEMORY_INIT request: the byte count received and the table id
 when a reply stream arrived.
 */
module Lts {
  import opened Common
  import opened Opcodes
  import opened Wire
  import opened Pcbs
  import opened Scheduler
  import SafeQueue

  datatype Link = Disconnected | Connected(bytesReceived: int, reply: Option<U32>)

  /** A receive reporting bytes always hands back a stream. */
  predicate WellFormedLink(link: Link)
  {
    link.Connected? && link.bytesReceived > 0 ==> link.reply.Some?
  }

  /** The effect of one `admit`: the new state, the MEMORY_INIT request sent (if any), the PCB moved to READY (if any). */
  datatype Admission = Admission(sched: Scheduler, request: Option<Message>, admitted: Option<Pcb>)

  /** The MEMORY_INIT request for a new PCB: pid, then its size cut to 32 bits. */
  function MemoryInitRequest(pcb: Pcb): (msg: Message)
    ensures msg.opcode == MEMORY_INIT && |msg.payload| == 8
    ensures DecodeOperands(msg.payload) == Operands(pcb.id, Wrap32(pcb.size))
  {
    var o := Operands(pcb.id, Wrap32(pcb.size));
    DecodeEncodeOperands(o);
    assert EncodeOperands(o)[..8] == EncodeOperands(o);
    Message(MEMORY_INIT, EncodeOperands(o))
  }

  /** A newly admitted PCB's page table: the id Memory replied with, if it replied; the old value otherwise. */
  function ReceivedPageTable(pcb: Pcb, link: Link): U32
  {
    if link.Connected? && link.reply.Some? then link.reply.value else pcb.pageTable
  }

  /**
   `admit`, corrected. With either queue missing nothing happens. Otherwise a
   resumable PCB is taken in preference to the head of NEW; a new PCB gets
   its page table from Memory when connected. The PCB taken becomes READY and
   joins the tail of READY, and `execute` is signalled once whether or not a
   PCB was found.
   */
  function Admit(s: Scheduler, resumable: Option<Pcb>, link: Link): (r: Admission)
    requires WellFormedLink(link)
    ensures s.newQueue.None? || s.ready.None? ==> r == Admission(s, None, None)
    ensures s.newQueue.Some? && s.ready.Some? ==>
      && r.sched == s.(execute := s.execute + 1, newQueue := r.sched.newQueue, ready := r.sched.ready)
      && r.sched.newQueue.Some? && r.sched.ready.Some?
      && (r.admitted.Some? ==> r.admitted.value.status == Ready && r.sched.ready.value == s.ready.value + [r.admitted.value])
      && (r.admitted.None? ==> r.sched.ready == s.ready && r.sched.newQueue == s.newQueue)
      && (resumable.Some? ==> r.admitted == Some(resumable.value.(status := Ready))
                              && r.sched.newQueue == s.newQueue && r.request.None?)
      && (resumable.None? && |s.newQueue.value| > 0 ==>
            var head := s.newQueue.value[0];
            && r.admitted == Some(head.(status := Ready, pageTable := ReceivedPageTable(head, link)))
            && r.sched.newQueue.value == s.newQueue.value[1..]
            && r.request == (if link.Connected? then Some(MemoryInitRequest(head)) else None))
      && (resumable.None? && |s.newQueue.value| == 0 ==> r.admitted.None? && r.request.None?)
  {
    if s.newQueue.None? || s.ready.None? then Admission(s, None, None)
    else
      var signalled := s.(execute := s.execute + 1);
      if resumable.Some? then
        var p := resumable.value.(status := Ready);
        Admission(signalled.(ready := Some(SafeQueue.Push(s.ready.value, p))), None, Some(p))
      else
        var (popped, rest) := SafeQueue.Pop(s.newQueue.value);
        match popped
        case None => Admission(signalled, None, None)
        case Some(head) =>
          var request := if link.Connected? then Some(MemoryInitRequest(head)) else None;
          var p := head.(status := Ready, pageTable := ReceivedPageTable(head, link));
          Admission(signalled.(newQueue := Some(rest), ready := Some(SafeQueue.Push(s.ready.value, p))), request, Some(p))
  }

  /**
   Admission moves a PCB, it does not copy or lose one: NEW and READY together
   hold one more PCB exactly when a suspended one was resumed, and as many as
   before otherwise.
   */
  lemma AdmitKeepsPcbCount(s: Scheduler, resumable: Option<Pcb>, link: Link)
    requires WellFormedLink(link) && s.newQueue.Some? && s.ready.Some?
    ensures var r := Admit(s, resumable, link).sched;
      |r.newQueue.value| + |r.ready.value| == |s.newQueue.value| + |s.ready.value| + (if resumable.Some? then 1 else 0)
  {
  }

  /**
   `admit` as written: with NEW empty, nothing to resume and Memory connected,
   it reads the id of the PCB it popped, which is NULL (`None` here).
   Elsewhere it behaves as the corrected `Admit`.
   */
  function AdmitAsWritten(s: Scheduler, resumable: Option<Pcb>, link: Link): (r: Option<Admission>)
    requires WellFormedLink(link)
    ensures r.None? <==> s.newQueue.Some? && s.ready.Some? && resumable.None? && |s.newQueue.value| == 0 && link.Connected?
  {
    if s.newQueue.Some? && s.ready.Some? && resumable.None? && |s.newQueue.value| == 0 && link.Connected? then None
    else Some(Admit(s, resumable, link))
  }

  /**
   The input on which `admit` dereferences NULL: an admission request with a
   free slot but an empty NEW queue while Memory is connected. The corrected
   step just signals `execute` and sends nothing.
   */
  lemma AdmitNullPcbExample()
    ensures var s := Scheduler(1, 0, 0, Some([]), Some([]), Fifo);
      var link := Connected(4, Some(0));
      && AdmitAsWritten(s, None, link).None?
      && Admit(s, None, link) == Admission(s.(execute := 1), None, None)
  {
  }

  /** Where the code as written does not crash, it does exactly what the corrected step does. */
  lemma AdmitAsWrittenAgrees(s: Scheduler, resumable: Option<Pcb>, link: Link)
    requires WellFormedLink(link) && AdmitAsWritten(s, resumable, link).Some?
    ensures AdmitAsWritten(s, resumable, link).value == Admit(s, resumable, link)
  {
  }

  /** One pass of `long_term_schedule`'s loop, stopping where a semaphore wait would block. */
  datatype Step = AwaitingRequest | AwaitingSlot(sched: Scheduler) | Admitted(admission: Admission)

  /**
   One iteration of `long_term_schedule`: wait on `req_admit`, then on `dom`,
   then admit.
   */
  function LongTermIteration(s: Scheduler, resumable: Option<Pcb>, link: Link): (r: Step)
    requires WellFormedLink(link)
    ensures r.AwaitingRequest? <==> s.reqAdmit == 0
    ensures r.AwaitingSlot? <==> s.reqAdmit > 0 && s.dom == 0
    ensures r.AwaitingSlot? ==> r.sched == s.(reqAdmit := s.reqAdmit - 1)
  {
    if s.reqAdmit == 0 then AwaitingRequest
    else if s.dom == 0 then AwaitingSlot(s.(reqAdmit := s.reqAdmit - 1))
    else Admitted(Admit(s.(reqAdmit := s.reqAdmit - 1, dom := s.dom - 1), resumable, link))
  }

  /**
   An admitting iteration consumes exactly one request and one slot, and the
   slot is not handed back even when no PCB was found.
   */
  lemma IterationConsumesRequestAndSlot(s: Scheduler, resumable: Option<Pcb>, link: Link)
    requires WellFormedLink(link) && s.reqAdmit > 0 && s.dom > 0
    ensures var r := LongTermIteration(s, resumable, link);
      && r.Admitted?
      && r.admission.sched.reqAdmit == s.reqAdmit - 1
      && r.admission.sched.dom == s.dom - 1
      && (s.newQueue.Some? && s.ready.Some? ==> r.admission.sched.execute == s.execute + 1)
  {
  }
}

=== FILE: mmu.dfy ===
/**
 The CPU's MMU arithmetic (cpu/src/module/cpu.c): splitting a logical address
 into page number and offset, the page number into the two table indices, and
 composing a physical address from a frame and an offset, all in `uint32_t`.
 */
module Mmu {
  import opened Common

  /** `obtener_numero_pagina`: the page a logical address falls in. */
  function PageNumber(la: U32, pageSize: U32): (page: U32)
    requires pageSize > 0
    ensures page * pageSize <= la < page * pageSize + pageSize
  {
    la / pageSize
  }

  /** `obtener_offset`: the address minus the start of its page. */
  function Offset(la: U32, pageSize: U32): (off: U32)
    requires pageSize > 0
    ensures off < pageSize
    ensures PageNumber(la, pageSize) * pageSize + off == la
    ensures off == la % pageSize
  {
    la - pageSize * PageNumber(la, pageSize)
  }

  /** `obtener_entrada_primer_nivel`: which Level-I entry covers the page. */
  function Level1Index(la: U32, pageSize: U32, entries: U32): (l1: U32)
    requires pageSize > 0 && entries > 0
    ensures l1 * entries <= PageNumber(la, pageSize) < l1 * entries + entries
  {
    PageNumber(la, pageSize) / entries
  }

  /** `obtener_entrada_segundo_nivel`: which Level-II entry, within its table, covers the page. */
  function Level2Index(la: U32, pageSize: U32, entries: U32): (l2: U32)
    requires pageSize > 0 && entries > 0
    ensures l2 < entries
    ensures Level1Index(la, pageSize, entries) * entries + l2 == PageNumber(la, pageSize)
  {
    PageNumber(la, pageSize) % entries
  }

  /** `frame * page_size + offset` evaluated in `uint32_t`, so it wraps on overflow. */
  function Compose(frame: U32, offset: U32, pageSize: U32): (pa: U32)
  {
    Wrap32(frame * pageSize + offset)
  }

  /**
   When the frame's page lies inside the 32-bit space, the composed address is
   exact, lies inside the frame, keeps the offset, and dividing by the page
   size (what the Memory unit does) gives the frame back.
   */
  lemma ComposeInFrame(frame: U32, offset: U32, pageSize: U32)
    requires pageSize > 0 && offset < pageSize
    requires frame * pageSize + pageSize <= TWO_POW_32
    ensures Compose(frame, offset, pageSize) == frame * pageSize + offset
    ensures frame * pageSize <= Compose(frame, offset, pageSize) < (frame + 1) * pageSize
    ensures Compose(frame, offset, pageSize) % pageSize == offset
    ensures Compose(frame, offset, pageSize) / pageSize == frame
  {
    var pa := frame * pageSize + offset;
    assert pa <= UINT32_MAX;
    LemmaDivModUnique(pa, pageSize, frame, offset);
  }

  /** Division by a positive number has one quotient/remainder pair. */
  lemma LemmaDivModUnique(a: nat, d: nat, q: nat, r: nat)
    requires d > 0 && r < d && a == q * d + r
    ensures a / d == q && a % d == r
  {
    var q', r' := a / d, a % d;
    assert (q - q') * d == r' - r;
    LemmaMulSmall(q - q', d);
  }

  /** A multiple of `d` strictly between `-d` and `d` is zero. */
  lemma LemmaMulSmall(k: int, d: nat)
    requires d > 0 && 0 - d < k * d < d
    ensures k == 0
  {
    if k >= 1 {
      LemmaMulLe(1, k, d);
    } else if k <= -1 {
      assert (-k) * d == -(k * d);
      LemmaMulLe(1, -k, d);
    }
  }

  /** Multiplying by a natural number preserves order. */
  lemma LemmaMulLe(x: nat, y: nat, d: nat)
    requires x <= y
    ensures x * d <= y * d
  {
    assert y * d == x * d + (y - x) * d;
  }

  /**
   `req_physical_address`, composition part: walk the two levels through the
   Memory unit's answers (`secondLevel(table1, l1)` then `frameOf(table2, l2)`)
   and compose the frame with the logical offset. The TLB update is not modelled.
   */
  function PhysicalAddress(
    la: U32, pageSize: U32, entries: U32, pageTable: U32,
    secondLevel: (U32, U32) -> U32, frameOf: (U32, U32) -> U32): (pa: U32)
    requires pageSize > 0 && entries > 0
  {
    var table2 := secondLevel(pageTable, Level1Index(la, pageSize, entries));
    var frame := frameOf(table2, Level2Index(la, pageSize, entries));
    Compose(frame, Offset(la, pageSize), pageSize)
  }

  /** The translated address keeps the logical offset and lands in the frame Memory reported. */
  lemma PhysicalAddressKeepsOffset(
    la: U32, pageSize: U32, entries: U32, pageTable: U32,
    secondLevel: (U32, U32) -> U32, frameOf: (U32, U32) -> U32)
    requires pageSize > 0 && entries > 0
    requires
      var frame := frameOf(secondLevel(pageTable, Level1Index(la, pageSize, entries)),
                           Level2Index(la, pageSize, entries));
      frame * pageSize + pageSize <= TWO_POW_32
    ensures
      var frame := frameOf(secondLevel(pageTable, Level1Index(la, pageSize, entries)),
                           Level2Index(la, pageSize, entries));
      var pa := PhysicalAddress(la, pageSize, entries, pageTable, secondLevel, frameOf);
      && pa == frame * pageSize + la % pageSize
      && pa % pageSize == la % pageSize
      && pa / pageSize == frame
  {
    var frame := frameOf(secondLevel(pageTable, Level1Index(la, pageSize, entries)),
                         Level2Index(la, pageSize, entries));
    ComposeInFrame(frame, Offset(la, pageSize), pageSize);
  }

  /**
   The worked example next to the MMU code: 64-byte pages, logical
   `|001000|111111|` (575) is page 8 offset 63; page 8 in frame 3 gives
   physical `|000011|111111|` (255).
   */
  lemma WorkedExample()
    ensures PageNumber(575, 64) == 8 && Offset(575, 64) == 63
    ensures Compose(3, Offset(575, 64), 64) == 255
  {
  }

  /** 64-byte pages and 4 entries per table: 2111 is page 32, offset 63, Level-I 8, Level-II 0. */
  lemma DecompositionExample()
    ensures PageNumber(2111, 64) == 32 && Offset(2111, 64) == 63
    ensures Level1Index(2111, 64, 4) == 8 && Level2Index(2111, 64, 4) == 0
  {
  }
}

=== FILE: opcode.dfy ===
/**
 The operation codes that tag every message between Kernel, CPU and Memory.
 The C enumeration assigns consecutive ordinals in declaration order, starting
 at zero; on the wire a code travels as that ordinal.
 */
module Opcodes {
  import opened Common

  datatype Opcode =
    | DC                    // disconnected
    | MSG                   // standard message
    | PKG                   // package
    | SYS                   // system call
    | CMD                   // command
    | INOUT                 // I/O return
    | OP                    // operands
    | PCB                   // process control block
    | RD                    // read request and read reply
    | WR                    // write (not used by the CPU's write path)
    | SWAP_PCB
    | RETRIEVE_SWAPPED_PCB
    | RETRIEVED_PCB
    | WT                    // write, as sent by the CPU
    | INT                   // interruption
    | SZ                    // page size
    | ENTRIES               // entries per table
    | FRAME
    | SND_PAGE              // second-level page
    | MEMORY_INIT
    | PROCESS_TERMINATED

  /** Number of declared codes. */
  const OPCODE_COUNT: nat := 21

  /** The codes in declaration order: the code with ordinal `n` sits at index `n`. */
  const Declared: seq<Opcode> := [
    DC, MSG, PKG, SYS, CMD, INOUT, OP, PCB, RD, WR, SWAP_PCB,
    RETRIEVE_SWAPPED_PCB, RETRIEVED_PCB, WT, INT, SZ, ENTRIES, FRAME,
    SND_PAGE, MEMORY_INIT, PROCESS_TERMINATED
  ]

  /** The C ordinal of a code. */
  function Ordinal(op: Opcode): (n: nat)
    ensures n < OPCODE_COUNT
    ensures Declared[n] == op
  {
    match op
    case DC => 0
    case MSG => 1
    case PKG => 2
    case SYS => 3
    case CMD => 4
    case INOUT => 5
    case OP => 6
    case PCB => 7
    case RD => 8
    case WR => 9
    case SWAP_PCB => 10
    case RETRIEVE_SWAPPED_PCB => 11
    case RETRIEVED_PCB => 12
    case WT => 13
    case INT => 14
    case SZ => 15
    case ENTRIES => 16
    case FRAME => 17
    case SND_PAGE => 18
    case MEMORY_INIT => 19
    case PROCESS_TERMINATED => 20
  }

  /** The code an integer names on the wire, if any. */
  function FromOrdinal(n: int): (r: Option<Opcode>)
    ensures r.Some? <==> 0 <= n < OPCODE_COUNT
    ensures r.Some? ==> Ordinal(r.value) == n
  {
    if 0 <= n < OPCODE_COUNT then
      OrdinalOfDeclared(n);
      Some(Declared[n])
    else None
  }

  /** Each code's ordinal is its position in the declaration. */
  lemma OrdinalOfDeclared(n: nat)
    requires n < OPCODE_COUNT
    ensures Ordinal(Declared[n]) == n
  {
  }

  /** Opcode to integer to opcode is the identity. */
  lemma FromOrdinalOrdinal(op: Opcode)
    ensures FromOrdinal(Ordinal(op)) == Some(op)
  {
  }

  /** Two codes with the same ordinal are the same code. */
  lemma OrdinalInjective(a: Opcode, b: Opcode)
    requires Ordinal(a) == Ordinal(b)
    ensures a == b
  {
  }

  /** The two "write" codes are distinct codes, 9 and 13. */
  lemma WriteCodesDistinct()
    ensures Ordinal(WR) == 9 && Ordinal(WT) == 13
    ensures WR != WT
  {
  }
}

=== FILE: os_memory.dfy ===
/**
 The Memory unit's state and the operations declared in
 memory/inc/module/os_memory.h: per-process Level-I tables, the shared list of
 Level-II tables, physical memory as bytes, and the per-pid swap records and
 swap files.

 The bodies of these operations (os_memory.c) are not part of this model;
 each definition below is the simplest one meeting the header's promise.
 */
module OsMemory {
  import opened Common
  import opened PageTable
  import SafeQueue

  /** Per-pid swap record (`swap_data_t`): the pid and its declared size. */
  datatype SwapData = SwapData(pid: U32, size: U32)

  /**
   `memory_t`. A deleted Level-I table leaves `None` in its slot, so the ids of
   the other tables do not shift. `swapFiles` maps a pid to its backing file.
   */
  datatype Memory = Memory(
    pageSize: nat,
    maxRows: nat,
    framesPerProcess: nat,
    tablesLvl1: seq<Option<seq<L1Row>>>,
    tablesLvl2: seq<seq<L2Row>>,
    bytes: seq<Byte>,
    swapData: seq<SwapData>,
    swapFiles: map<U32, seq<Byte>>
  )
  {
    /**
     Shape the C code relies on: a positive page size, every table `maxRows`
     rows long, and table ids and row indices that never reach `UINT32_MAX`.
     */
    predicate Valid()
    {
      && pageSize > 0
      && maxRows < UINT32_MAX
      && |tablesLvl1| < UINT32_MAX
      && |tablesLvl2| < UINT32_MAX
      && (forall i :: 0 <= i < |tablesLvl1| && tablesLvl1[i].Some? ==> |tablesLvl1[i].value| == maxRows)
      && (forall i :: 0 <= i < |tablesLvl2| ==> |tablesLvl2[i]| == maxRows)
    }

    /** Number of whole frames in physical memory. */
    function FrameCount(): nat
      requires pageSize > 0
    {
      |bytes| / pageSize
    }
  }

  /** Whether some Level-II row holds `frame` with its present bit set. */
  predicate FrameInUse(m: Memory, frame: nat)
  {
    exists i, j :: 0 <= i < |m.tablesLvl2| && 0 <= j < |m.tablesLvl2[i]|
      && m.tablesLvl2[i][j].frame == frame && m.tablesLvl2[i][j].present
  }

  /**
   `create_new_process`: append a fresh Level-I table (every entry unset) and
   return its id; nothing else changes.
   */
  function CreateNewProcess(m: Memory): (r: (Memory, U32))
    requires m.Valid() && |m.tablesLvl1| + 1 < UINT32_MAX
    ensures r.0.Valid()
    ensures r.1 == |m.tablesLvl1| && r.1 < |r.0.tablesLvl1|
    ensures r.0.tablesLvl1[r.1] == Some(NewPageTable(m.maxRows))
    ensures r.0.tablesLvl1[..r.1] == m.tablesLvl1
    ensures r.0 == m.(tablesLvl1 := r.0.tablesLvl1)
  {
    (m.(tablesLvl1 := m.tablesLvl1 + [Some(NewPageTable(m.maxRows))]), |m.tablesLvl1|)
  }

  /**
   `delete_process`: release exactly the given Level-I table. Its slot shows
   as empty, so every other table keeps its id; an unknown id changes nothing.
   */
  function DeleteProcess(m: Memory, table1: U32): (r: Memory)
    requires m.Valid()
    ensures r.Valid()
    ensures |r.tablesLvl1| == |m.tablesLvl1|
    ensures table1 < |m.tablesLvl1| ==> r.tablesLvl1[table1].None?
    ensures forall i :: 0 <= i < |m.tablesLvl1| && i != table1 ==> r.tablesLvl1[i] == m.tablesLvl1[i]
    ensures r == m.(tablesLvl1 := r.tablesLvl1)
  {
    if table1 < |m.tablesLvl1| then m.(tablesLvl1 := m.tablesLvl1[table1 := None]) else m
  }

  /** Deleting the same table twice is the same as deleting it once. */
  lemma DeleteProcessIdempotent(m: Memory, table1: U32)
    requires m.Valid()
    ensures DeleteProcess(DeleteProcess(m, table1), table1) == DeleteProcess(m, table1)
  {
  }

  /**
   `find_free_frame`: the lowest frame no present Level-II row holds, or
   `UINT32_MAX` when every frame of physical memory is taken.
   */
  method FindFreeFrame(m: Memory) returns (f: U32)
    requires m.Valid() && m.FrameCount() <= UINT32_MAX
    ensures f == UINT32_MAX <==> forall g :: 0 <= g < m.FrameCount() ==> FrameInUse(m, g)
    ensures f != UINT32_MAX ==> f < m.FrameCount() && !FrameInUse(m, f)
    ensures f != UINT32_MAX ==> forall g :: 0 <= g < f ==> FrameInUse(m, g)
  {
    var count := m.FrameCount();
    var g := 0;
    while g < count
      invariant 0 <= g <= count
      invariant forall h :: 0 <= h < g ==> FrameInUse(m, h)
    {
      var used := false;
      var i := 0;
      while i < |m.tablesLvl2| && !used
        invariant 0 <= i <= |m.tablesLvl2|
        invariant used ==> FrameInUse(m, g)
        invariant !used ==> forall a, b :: 0 <= a < i && 0 <= b < |m.tablesLvl2[a]| ==>
          !(m.tablesLvl2[a][b].frame == g && m.tablesLvl2[a][b].present)
      {
        var row := FirstPresentRow(m.tablesLvl2[i], g);
        used := row.Some?;
        i := i + 1;
      }
      if !used {
        assert !FrameInUse(m, g);
        return g;
      }
      g := g + 1;
    }
    return UINT32_MAX;
  }

  /** Index of the first row holding `frame` with the present bit set. */
  function FirstPresentRow(t: seq<L2Row>, frame: nat): (r: Option<nat>)
    ensures r.None? <==> forall j :: 0 <= j < |t| ==> !(t[j].frame == frame && t[j].present)
    ensures r.Some? ==> r.value < |t| && t[r.value].frame == frame && t[r.value].present
  {
    SafeQueue.FirstIndex(t, (row: L2Row) => row.frame == frame && row.present)
  }

  /**
   `create_frame_for_table`: in Level-II table `index`, mark present the first
   row holding `frame`, and return that row's index; if no row holds it,
   return `UINT32_MAX` and change nothing.
   */
  function CreateFrameForTable(m: Memory, index: U32, frame: U32): (r: (Memory, U32))
    requires m.Valid() && index < |m.tablesLvl2|
    ensures r.0.Valid()
    ensures r.1 == UINT32_MAX <==> !HoldsFrame(m.tablesLvl2[index], frame)
    ensures r.1 == UINT32_MAX ==> r.0 == m
    ensures r.1 != UINT32_MAX ==>
      && r.1 < m.maxRows
      && FirstRowWithFrame(m.tablesLvl2[index], frame) == Some(r.1 as nat)
      && r.0.tablesLvl2 == m.tablesLvl2[index := m.tablesLvl2[index][r.1 := m.tablesLvl2[index][r.1].(present := true)]]
      && r.0 == m.(tablesLvl2 := r.0.tablesLvl2)
  {
    var t := m.tablesLvl2[index];
    match FirstRowWithFrame(t, frame)
    case None => (m, UINT32_MAX)
    case Some(j) =>
      (m.(tablesLvl2 := m.tablesLvl2[index := t[j := t[j].(present := true)]]), j)
  }

  /** `read_from_memory`: the `uint32_t` stored (little-endian) at byte address `pa`. */
  function ReadFromMemory(m: Memory, pa: nat): U32
    requires pa + 4 <= |m.bytes|
  {
    DecodeU32(m.bytes[pa..pa + 4])
  }

  /**
   `write_in_memory`: copy the four bytes of `value` to byte address `pa`;
   no byte outside `[pa, pa + 4)` and nothing but the bytes changes.
   */
  function WriteInMemory(m: Memory, pa: nat, value: U32): (r: Memory)
    requires pa + 4 <= |m.bytes|
    ensures |r.bytes| == |m.bytes|
    ensures r.bytes[pa..pa + 4] == EncodeU32(value)
    ensures forall b :: 0 <= b < |m.bytes| && !(pa <= b < pa + 4) ==> r.bytes[b] == m.bytes[b]
    ensures r == m.(bytes := r.bytes)
  {
    m.(bytes := m.bytes[..pa] + EncodeU32(value) + m.bytes[pa + 4..])
  }

  /** A read after a write at the same address yields the written value. */
  lemma ReadAfterWrite(m: Memory, pa: nat, value: U32)
    requires pa + 4 <= |m.bytes|
    ensures ReadFromMemory(WriteInMemory(m, pa, value), pa) == value
  {
    DecodeEncodeU32(value);
  }

  /** Writes at word addresses four or more bytes apart do not disturb each other. */
  lemma WriteLeavesOtherWords(m: Memory, pa: nat, value: U32, qa: nat)
    requires pa + 4 <= |m.bytes| && qa + 4 <= |m.bytes|
    requires qa + 4 <= pa || pa + 4 <= qa
    ensures ReadFromMemory(WriteInMemory(m, pa, value), qa) == ReadFromMemory(m, qa)
  {
    var r := WriteInMemory(m, pa, value);
    assert r.bytes[qa..qa + 4] == m.bytes[qa..qa + 4];
  }

  /**
   `delete_swap_data`: remove the (first) swap record of `pid`; the other
   records keep their order, and an unknown pid changes nothing.
   */
  function DeleteSwapData(m: Memory, pid: U32): (r: Memory)
    ensures (forall i :: 0 <= i < |m.swapData| ==> m.swapData[i].pid != pid) ==> r == m
    ensures |r.swapData| == |m.swapData| - (if exists i :: 0 <= i < |m.swapData| && m.swapData[i].pid == pid then 1 else 0)
    ensures multiset(r.swapData) <= multiset(m.swapData)
    ensures forall d :: d in m.swapData && d.pid != pid ==> multiset(r.swapData)[d] == multiset(m.swapData)[d]
    ensures forall k :: 0 <= k < |m.swapData| && m.swapData[k].pid == pid
                        && (forall i :: 0 <= i < k ==> m.swapData[i].pid != pid) ==>
      r.swapData == m.swapData[..k] + m.swapData[k + 1..]
    ensures r == m.(swapData := r.swapData)
  {
    var (_, rest) := SafeQueue.RemoveBy(m.swapData, (d: SwapData) => d.pid == pid);
    m.(swapData := rest)
  }

  /**
   When the pid has at most one swap record, deleting it leaves no record of
   that pid, so a second deletion changes nothing.
   */
  lemma DeleteSwapDataClears(m: Memory, pid: U32)
    requires forall i, j :: 0 <= i < j < |m.swapData| ==> !(m.swapData[i].pid == pid && m.swapData[j].pid == pid)
    ensures forall k :: 0 <= k < |DeleteSwapData(m, pid).swapData| ==> DeleteSwapData(m, pid).swapData[k].pid != pid
    ensures DeleteSwapData(DeleteSwapData(m, pid), pid) == DeleteSwapData(m, pid)
  {
    SafeQueue.RemoveByUnique(m.swapData, (d: SwapData) => d.pid == pid);
  }
}

=== FILE: page_table.dfy ===
/**
 Two-level page tables of the Memory unit (memory/src/module/page_table.c).
 A Level-I row names a Level-II table (or is unset); a Level-II row names a
 frame (or is unset) and carries the modified, present and use flags. In both,
 "unset" is `UINT32_MAX`.
 */
module PageTable {
  import opened Common

  datatype L1Row = L1Row(secondPage: U32)

  datatype L2Row = L2Row(frame: U32, modified: bool, present: bool, use: bool)

  /** The row a fresh Level-II table starts with. */
  const UnsetL2Row: L2Row := L2Row(UINT32_MAX, false, false, false)

  /** `new_page_table`: `rows` Level-I entries, none naming a Level-II table. */
  function NewPageTable(rows: nat): (t: seq<L1Row>)
    ensures |t| == rows
    ensures forall i :: 0 <= i < rows ==> t[i].secondPage == UINT32_MAX
  {
    seq(rows, _ => L1Row(UINT32_MAX))
  }

  /** `new_page_table_lvl2`: `rows` Level-II entries, no frame, every flag clear. */
  function NewPageTableLvl2(rows: nat): (t: seq<L2Row>)
    ensures |t| == rows
    ensures forall i :: 0 <= i < rows ==> t[i] == UnsetL2Row
  {
    seq(rows, _ => UnsetL2Row)
  }

  /** Whether any row of a Level-I table names Level-II table `id`. */
  predicate References(t: seq<L1Row>, id: U32)
  {
    exists j :: 0 <= j < |t| && t[j].secondPage == id
  }

  /** A fresh Level-I table names no real Level-II table. */
  lemma NewPageTableReferencesNothing(rows: nat, id: U32)
    requires id != UINT32_MAX
    ensures !References(NewPageTable(rows), id)
  {
  }

  /** Number of rows of a Level-II table with the present bit set. */
  function PresentCount(t: seq<L2Row>): (n: nat)
    ensures n <= |t|
    ensures n == 0 <==> forall j :: 0 <= j < |t| ==> !t[j].present
  {
    if |t| == 0 then 0
    else (if t[|t| - 1].present then 1 else 0) + PresentCount(t[..|t| - 1])
  }

  /** A fresh Level-II table adds nothing to any present count. */
  lemma NewPageTableLvl2NothingPresent(rows: nat)
    ensures PresentCount(NewPageTableLvl2(rows)) == 0
  {
  }

  /** Index of the first row holding `frame`, if any (the scan `frame_is_present` performs). */
  function FirstRowWithFrame(t: seq<L2Row>, frame: U32): (r: Option<nat>)
    ensures r.None? <==> forall j :: 0 <= j < |t| ==> t[j].frame != frame
    ensures r.Some? ==> r.value < |t| && t[r.value].frame == frame
    ensures r.Some? ==> forall j :: 0 <= j < r.value ==> t[j].frame != frame
  {
    if |t| == 0 then None
    else if t[0].frame == frame then Some(0)
    else
      match FirstRowWithFrame(t[1..], frame)
      case None => None
      case Some(j) => Some(j + 1)
  }

  /** Whether some row of the table holds `frame`. */
  predicate HoldsFrame(t: seq<L2Row>, frame: U32)
  {
    exists j :: 0 <= j < |t| && t[j].frame == frame
  }

  /**
   Setting the present bit of a row that did not have it raises the table's
   present count by exactly one.
   */
  lemma {:induction false} MarkPresentCount(t: seq<L2Row>, j: nat)
    requires j < |t| && !t[j].present
    ensures PresentCount(t[j := t[j].(present := true)]) == PresentCount(t) + 1
    decreases |t|
  {
    var t' := t[j := t[j].(present := true)];
    if j == |t| - 1 {
      assert t'[..|t'| - 1] == t[..|t| - 1];
    } else {
      var u := t[..|t| - 1];
      assert t'[..|t'| - 1] == u[j := u[j].(present := true)];
      MarkPresentCount(u, j);
    }
  }
}

=== FILE: pcb.dfy ===
/**
 The process control block the Kernel schedules and the CPU executes, and the
 symbolic instruction set it carries.
 */
module Pcbs {
  import opened Common

  datatype Status = New | Ready | Executing | Blocked | Terminated

  /** Instruction codes; `Unknown` stands for any other integer in `icode`. */
  datatype ICode = NoOp | Io | Exit | Read | Write | Copy | Unknown(code: int)

  datatype Instruction = Instruction(icode: ICode, param0: U32, param1: U32)

  /**
   A PCB: `pc` indexes `instructions`; `pageTable` is the Level-I table id the
   Memory unit handed out; `estimation` is the burst estimate SRT orders by;
   `size` is the declared byte size (a `size_t`, hence unbounded here).
   */
  datatype Pcb = Pcb(
    id: U32,
    size: nat,
    instructions: seq<Instruction>,
    pc: nat,
    status: Status,
    pageTable: U32,
    estimation: nat
  )
}

=== FILE: protocol.dfy ===
/**
 The Kernel-Memory exchanges end to end: what one side encodes is what the
 other side decodes, and a process's life from admission to teardown leaves
 the Memory unit and the scheduler as they were.
 */
module Protocol {
  import opened Common
  import opened Opcodes
  import opened Wire
  import opened Pcbs
  import opened OsMemory
  import opened Scheduler
  import KernelController
  import SwapController
  import Lts
  import Sts

  /** The PROCESS_TERMINATED payload the Kernel builds names, for Memory, the PCB's pid and Level-I table. */
  lemma ExitPayloadRoundTrip(pcb: Pcb)
    ensures KernelController.DestroyTarget(SwapController.Exit(pcb).payload) == (pcb.id, pcb.pageTable)
  {
    var payload := SwapController.Exit(pcb).payload;
    var (pid, table) := KernelController.DestroyTarget(payload);
    EncodeU32Injective(pid, pcb.id);
    EncodeU32Injective(table, pcb.pageTable);
  }

  /**
   The MEMORY_INIT request the long-term scheduler sends makes Memory record
   (pid, size mod 2^32), and the reply, once received, becomes the PCB's page
   table: the id of the Level-I table Memory just created.
   */
  lemma MemoryInitRoundTrip(m: Memory, s: Scheduler, pcb: Pcb)
    requires m.Valid() && |m.tablesLvl1| + 1 < UINT32_MAX
    requires s.newQueue == Some([pcb]) && s.ready.Some?
    ensures var request := Lts.MemoryInitRequest(pcb);
      var init := KernelController.MemoryInit(m, request.payload);
      var tableId := DecodeU32(init.reply.value.payload);
      var admission := Lts.Admit(s, None, Lts.Connected(4, Some(tableId)));
      && init.memory.swapData == m.swapData + [SwapData(pcb.id, Wrap32(pcb.size))]
      && tableId == |m.tablesLvl1|
      && init.memory.tablesLvl1[tableId] == Some(PageTable.NewPageTable(m.maxRows))
      && admission.request == Some(request)
      && admission.admitted.value.pageTable == tableId
      && admission.admitted.value.id == pcb.id
  {
    var init := KernelController.MemoryInit(m, Lts.MemoryInitRequest(pcb).payload);
    DecodeEncodeU32(|m.tablesLvl1|);
  }

  /**
   A PCB the Kernel swaps out under SWAP_PCB and later asks for under
   RETRIEVE_SWAPPED_PCB comes back byte for byte, when the file-system calls
   succeed.
   */
  lemma SwapRoundTrip(files: map<U32, seq<Byte>>, pid: U32, stream: seq<Byte>)
    ensures var sent := SwapController.SendPcb(SWAP_PCB, stream);
      var (status, files') := KernelController.SwapPcb(files, pid, sent.payload, true, false);
      var asked := DecodeU32(SwapController.RequestPcb(pid).payload);
      && status == KernelController.Success
      && KernelController.RetrieveSwappedPcb(files', asked, true, true) == Some(stream)
  {
  }

  /**
   A process's life as far as Memory sees it: initialised from the Kernel's
   MEMORY_INIT request, then torn down by the PROCESS_TERMINATED message for
   the PCB carrying the table id Memory handed out. The table slot ends up
   released, the pid has no swap file, and the swap records are as before.
   */
  lemma ProcessLifecycle(m: Memory, pcb: Pcb)
    requires m.Valid() && |m.tablesLvl1| + 1 < UINT32_MAX
    requires forall i :: 0 <= i < |m.swapData| ==> m.swapData[i].pid != pcb.id
    ensures var init := KernelController.MemoryInit(m, Lts.MemoryInitRequest(pcb).payload);
      var running := pcb.(pageTable := DecodeU32(init.reply.value.payload));
      var r := KernelController.DestroyProcessFile(init.memory, SwapController.Exit(running).payload);
      && r.swapData == m.swapData
      && pcb.id !in r.swapFiles
      && r.tablesLvl1[..|m.tablesLvl1|] == m.tablesLvl1
      && r.tablesLvl1[|m.tablesLvl1|].None?
  {
    var request := Lts.MemoryInitRequest(pcb).payload;
    var init := KernelController.MemoryInit(m, request);
    DecodeEncodeU32(|m.tablesLvl1|);
    var running := pcb.(pageTable := DecodeU32(init.reply.value.payload));
    assert SwapController.Exit(running).payload == EncodeU32(DecodeOperands(request).op1) + init.reply.value.payload;
    KernelController.InitThenDestroy(m, request);
  }

  /**
   The multiprogramming slot an admitting iteration takes is handed back by
   the short-term scheduler when the admitted process comes back TERMINATED.
   */
  lemma AdmitThenTerminateRestoresSlot(s: Scheduler, pcb: Pcb, link: Lts.Link, back: Pcb)
    requires Lts.WellFormedLink(link)
    requires s.reqAdmit > 0 && s.dom > 0 && s.newQueue == Some([pcb]) && s.ready == Some([])
    requires back.status == Terminated
    ensures var admitted := Lts.LongTermIteration(s, None, link).admission;
      var ready := admitted.sched.ready.value;
      && ready == [admitted.admitted.value]
      && var after := Sts.Execute(admitted.sched.(ready := Some([])), ready[0], back).sched;
      && after.dom == s.dom
      && after.ready == Some([])
      && after.newQueue == Some([])
  {
  }
}

=== FILE: safe_queue.dfy ===
/**
 The sequential contract of the mutex-protected queue (lib/inc/util/queue/safe_queue.h).
 A queue is a sequence whose head is index 0; the lock is not modelled. Every
 operation that removes returns the element (if any) and the remaining queue.
 */
module SafeQueue {
  import opened Common

  /** `safe_queue_push`: add an element at the tail. */
  function Push<T>(q: seq<T>, x: T): (r: seq<T>)
    ensures |r| == |q| + 1 && r[|q|] == x && r[..|q|] == q
  {
    q + [x]
  }

  /** `safe_queue_pop`: remove and return the head; an empty queue yields nothing and stays empty. */
  function Pop<T>(q: seq<T>): (r: (Option<T>, seq<T>))
    ensures r.0.None? <==> |q| == 0
    ensures r.0.None? ==> r.1 == q
    ensures r.0.Some? ==> [r.0.value] + r.1 == q
  {
    if |q| == 0 then (None, q) else (Some(q[0]), q[1..])
  }

  /** `safe_queue_peek`: the head, without removing it. */
  function Peek<T>(q: seq<T>): (r: Option<T>)
    ensures r.None? <==> |q| == 0
    ensures r.Some? ==> r.value == q[0]
  {
    if |q| == 0 then None else Some(q[0])
  }

  /** `safe_queue_is_empty`. */
  predicate IsEmpty<T>(q: seq<T>)
  {
    |q| == 0
  }

  /** Peek sees exactly the element Pop would remove, and is empty exactly when Pop finds nothing. */
  lemma PeekAgreesWithPop<T>(q: seq<T>)
    ensures Peek(q) == Pop(q).0
    ensures IsEmpty(q) <==> Pop(q).0.None?
  {
  }

  /**
   First-in first-out: popping after a push returns the old head (or the
   pushed element if the queue was empty), and the rest is the old tail
   followed by the pushed element.
   */
  lemma PushThenPop<T>(q: seq<T>, x: T)
    ensures |q| == 0 ==> Pop(Push(q, x)) == (Some(x), [])
    ensures |q| > 0 ==> Pop(Push(q, x)) == (Some(q[0]), Push(q[1..], x))
  {
    if |q| > 0 {
      assert Push(q, x)[1..] == q[1..] + [x];
    }
  }

  /** Index of the first element satisfying `p`, if any. */
  function FirstIndex<T>(q: seq<T>, p: T -> bool): (r: Option<nat>)
    ensures r.None? <==> forall i :: 0 <= i < |q| ==> !p(q[i])
    ensures r.Some? ==> r.value < |q| && p(q[r.value])
    ensures r.Some? ==> forall i :: 0 <= i < r.value ==> !p(q[i])
  {
    if |q| == 0 then None
    else if p(q[0]) then Some(0)
    else
      match FirstIndex(q[1..], p)
      case None => None
      case Some(i) => Some(i + 1)
  }

  /** `safe_queue_find_by`: the first element meeting the criteria, if any; the queue is untouched. */
  function FindBy<T>(q: seq<T>, p: T -> bool): (r: Option<T>)
    ensures r.None? <==> forall i :: 0 <= i < |q| ==> !p(q[i])
    ensures r.Some? ==> p(r.value) && r.value in q
  {
    match FirstIndex(q, p)
    case None => None
    case Some(i) => Some(q[i])
  }

  /** `safe_queue_any`: whether some element matches. */
  function Any<T>(q: seq<T>, p: T -> bool): (r: bool)
    ensures r <==> exists i :: 0 <= i < |q| && p(q[i])
  {
    FirstIndex(q, p).Some?
  }

  /** `any` holds exactly when `find_by` finds something. */
  lemma AnyIffFound<T>(q: seq<T>, p: T -> bool)
    ensures Any(q, p) <==> FindBy(q, p).Some?
  {
  }

  /**
   `safe_queue_remove_by`: remove and return the first matching element; when
   none matches, return nothing and leave the queue as it was.
   */
  function RemoveBy<T>(q: seq<T>, p: T -> bool): (r: (Option<T>, seq<T>))
    ensures r.0.None? <==> forall i :: 0 <= i < |q| ==> !p(q[i])
    ensures r.0.None? ==> r.1 == q
    ensures r.0.Some? ==> p(r.0.value) && |r.1| == |q| - 1
    ensures r.0.Some? ==> exists i :: (0 <= i < |q| && q[i] == r.0.value && r.1 == q[..i] + q[i + 1..]
                                         && forall k :: 0 <= k < i ==> !p(q[k]))
    ensures r.0.Some? ==> multiset(r.1) + multiset{r.0.value} == multiset(q)
    ensures forall k :: 0 <= k < |q| && p(q[k]) && (forall i :: 0 <= i < k ==> !p(q[i])) ==>
      r == (Some(q[k]), q[..k] + q[k + 1..])
  {
    match FirstIndex(q, p)
    case None => (None, q)
    case Some(i) =>
      assert q == q[..i] + [q[i]] + q[i + 1..];
      (Some(q[i]), q[..i] + q[i + 1..])
  }

  /** When at most one element matches, `remove_by` leaves none, and removing again changes nothing. */
  lemma RemoveByUnique<T>(q: seq<T>, p: T -> bool)
    requires forall i, j :: 0 <= i < j < |q| ==> !(p(q[i]) && p(q[j]))
    ensures forall k :: 0 <= k < |RemoveBy(q, p).1| ==> !p(RemoveBy(q, p).1[k])
    ensures RemoveBy(RemoveBy(q, p).1, p) == (None, RemoveBy(q, p).1)
  {
    var f := FirstIndex(q, p);
    if f.Some? {
      var i := f.value;
      var rest := q[..i] + q[i + 1..];
      assert RemoveBy(q, p).1 == rest;
      forall k | 0 <= k < |rest|
        ensures !p(rest[k])
      {
        if k < i {
          assert rest[k] == q[k];
        } else {
          assert rest[k] == q[k + 1];
        }
      }
    }
  }

  /** Whether `q` is ordered by non-decreasing `key`. */
  predicate SortedBy<T>(q: seq<T>, key: T -> int)
  {
    forall i, j :: 0 <= i < j < |q| ==> key(q[i]) <= key(q[j])
  }

  /** Insert `x` into a sorted queue after every element whose key does not exceed its own. */
  function Insert<T>(x: T, q: seq<T>, key: T -> int): (r: seq<T>)
    ensures multiset(r) == multiset(q) + multiset{x}
    ensures |r| == |q| + 1
    ensures forall i :: 0 <= i < |r| ==> r[i] == x || r[i] in q
  {
    if |q| == 0 then [x]
    else if key(x) < key(q[0]) then [x] + q
    else
      var rest := Insert(x, q[1..], key);
      assert q == [q[0]] + q[1..];
      [q[0]] + rest
  }

  /** Inserting into a sorted queue keeps it sorted. */
  lemma {:induction false} InsertSorted<T>(x: T, q: seq<T>, key: T -> int)
    requires SortedBy(q, key)
    ensures SortedBy(Insert(x, q, key), key)
  {
    if |q| > 0 && key(x) >= key(q[0]) {
      var rest := Insert(x, q[1..], key);
      InsertSorted(x, q[1..], key);
      assert forall k :: 0 <= k < |rest| ==> key(q[0]) <= key(rest[k]);
      assert Insert(x, q, key) == [q[0]] + rest;
    }
  }

  /**
   `safe_queue_sort` with a comparator that puts `a` before `b` when
   `key(a) <= key(b)`: a permutation of the queue in non-decreasing key order.
   */
  function SortBy<T>(q: seq<T>, key: T -> int): (r: seq<T>)
    ensures SortedBy(r, key)
    ensures multiset(r) == multiset(q)
    ensures |r| == |q|
  {
    if |q| == 0 then []
    else
      assert q == q[..|q| - 1] + [q[|q| - 1]];
      var sorted := SortBy(q[..|q| - 1], key);
      InsertSorted(q[|q| - 1], sorted, key);
      Insert(q[|q| - 1], sorted, key)
  }

  /** The head of a sorted, non-empty queue has the least key of all its elements. */
  lemma SortedHeadIsMinimal<T>(q: seq<T>, key: T -> int)
    requires SortedBy(q, key) && |q| > 0
    ensures forall x :: x in q ==> key(q[0]) <= key(x)
  {
  }
}

=== FILE: scheduler.dfy ===
/**
 The Kernel's scheduler state (kernel/inc/scheduling/scheduler.h) and its two
 selection policies (kernel/src/scheduling/scheduler_algorithms.c). The
 semaphores are counters; a queue that was never created is `None`.
 */
module Scheduler {
  import opened Common
  import opened Pcbs
  import SafeQueue

  datatype Policy = Fifo | Srt

  /**
   `scheduler_t` plus the Kernel's `execute` semaphore: the free
   multiprogramming slots (`dom`), pending admission requests (`reqAdmit`),
   pending dispatch signals (`execute`), and the NEW and READY queues.
   */
  datatype Scheduler = Scheduler(
    dom: nat,
    reqAdmit: nat,
    execute: nat,
    newQueue: Option<seq<Pcb>>,
    ready: Option<seq<Pcb>>,
    policy: Policy
  )

  /** The key `pcb_sort_by_estimation` compares. */
  function Estimation(p: Pcb): int
  {
    p.estimation
  }

  /** `get_next_fifo`: pop the head of READY; the rest keeps its order. */
  function GetNextFifo(ready: seq<Pcb>): (r: (Option<Pcb>, seq<Pcb>))
    ensures r.0.None? <==> |ready| == 0
    ensures r.0.None? ==> r.1 == ready
    ensures r.0.Some? ==> r.0.value == ready[0] && r.1 == ready[1..]
  {
    SafeQueue.Pop(ready)
  }

  /**
   `get_next_srt`: sort READY by ascending estimation, then pop the head. The
   PCB taken has the least estimation of all, what remains is sorted, and the
   two together are exactly the old READY queue.
   */
  function GetNextSrt(ready: seq<Pcb>): (r: (Option<Pcb>, seq<Pcb>))
    ensures r.0.None? <==> |ready| == 0
    ensures r.0.None? ==> r.1 == ready
    ensures r.0.Some? ==> forall p :: p in ready ==> r.0.value.estimation <= p.estimation
    ensures SafeQueue.SortedBy(r.1, Estimation)
    ensures r.0.Some? ==> multiset(r.1) + multiset{r.0.value} == multiset(ready)
  {
    var sorted := SafeQueue.SortBy(ready, Estimation);
    SortedPopFacts(ready, sorted);
    GetNextFifo(sorted)
  }

  /** Popping the head of a sorted permutation of `ready` takes a minimal PCB and keeps the rest sorted. */
  lemma SortedPopFacts(ready: seq<Pcb>, sorted: seq<Pcb>)
    requires SafeQueue.SortedBy(sorted, Estimation) && multiset(sorted) == multiset(ready)
    ensures |sorted| > 0 ==> forall p :: p in ready ==> sorted[0].estimation <= p.estimation
    ensures |sorted| > 0 ==> SafeQueue.SortedBy(sorted[1..], Estimation)
    ensures |sorted| > 0 ==> multiset(sorted[1..]) + multiset{sorted[0]} == multiset(ready)
  {
    if |sorted| > 0 {
      SafeQueue.SortedHeadIsMinimal(sorted, Estimation);
      assert forall p :: p in ready ==> p in multiset(sorted);
      assert sorted == [sorted[0]] + sorted[1..];
    }
  }

  /** On a queue already in estimation order, SRT picks a PCB of the same estimation as FIFO. */
  lemma SrtAgreesWithFifoWhenSorted(ready: seq<Pcb>)
    requires SafeQueue.SortedBy(ready, Estimation) && |ready| > 0
    ensures GetNextSrt(ready).0.value.estimation == GetNextFifo(ready).0.value.estimation
  {
    SafeQueue.SortedHeadIsMinimal(ready, Estimation);
    var sorted := SafeQueue.SortBy(ready, Estimation);
    assert sorted[0] in multiset(ready);
  }

  /** `sched.get_next`, as chosen by the policy. */
  function GetNext(policy: Policy, ready: seq<Pcb>): (r: (Option<Pcb>, seq<Pcb>))
    ensures r.0.None? <==> |ready| == 0
    ensures r.0.None? ==> r.1 == ready
    ensures r.0.Some? ==> r.0.value in ready && multiset(r.1) + multiset{r.0.value} == multiset(ready)
  {
    match policy
    case Fifo =>
      assert |ready| > 0 ==> ready == [ready[0]] + ready[1..];
      GetNextFifo(ready)
    case Srt =>
      var r := GetNextSrt(ready);
      assert r.0.Some? ==> r.0.value in multiset(ready);
      r
  }
}

=== FILE: sts.dfy ===
/**
 The short-term scheduler (kernel/src/scheduling/sts.c): pick a PCB from
 READY, mark it EXECUTING and send it to the CPU, then route the PCB the CPU
 sends back by its status. The CPU's answer is a parameter: the PCB it
 returns for the one it was sent.
 */
module Sts {
  import opened Common
  import opened Pcbs
  import opened Scheduler
  import SafeQueue

  /** The PCB sent to the CPU and the scheduler state once the returned PCB is routed. */
  datatype Dispatch = Dispatch(sent: Pcb, sched: Scheduler)

  /** `terminate`: give the multiprogramming slot back (the PCB itself is discarded). */
  function Terminate(s: Scheduler): (r: Scheduler)
    ensures r.dom == s.dom + 1
    ensures r == s.(dom := r.dom)
  {
    s.(dom := s.dom + 1)
  }

  /**
   `execute`: the PCB goes out as EXECUTING. The PCB that comes back is
   dropped when BLOCKED, ends its process when TERMINATED, and otherwise
   (READY included) joins the tail of READY.
   */
  function Execute(s: Scheduler, pcb: Pcb, back: Pcb): (r: Dispatch)
    requires s.ready.Some?
    ensures r.sent == pcb.(status := Executing)
    ensures r.sched.ready.Some?
  {
    var sched :=
      match back.status
      case Blocked => s
      case Terminated => Terminate(s)
      case _ => s.(ready := Some(SafeQueue.Push(s.ready.value, back)));
    Dispatch(pcb.(status := Executing), sched)
  }

  /**
   Each returned PCB is accounted for exactly once: a TERMINATED one frees one
   slot and is not queued, a BLOCKED one does neither, any other is queued at
   the tail and frees no slot; nothing else in the scheduler changes.
   */
  lemma ExecuteRoutesOnce(s: Scheduler, pcb: Pcb, back: Pcb)
    requires s.ready.Some?
    ensures var r := Execute(s, pcb, back).sched;
      && r == s.(dom := r.dom, ready := r.ready)
      && (back.status == Terminated ==> r.dom == s.dom + 1 && r.ready == s.ready)
      && (back.status == Blocked ==> r == s)
      && (back.status !in {Blocked, Terminated} ==> r.dom == s.dom && r.ready == Some(s.ready.value + [back]))
      && |r.ready.value| + r.dom == |s.ready.value| + s.dom + (if back.status == Blocked then 0 else 1)
  {
  }

  /** One pass of `short_term_schedule`'s loop: nothing to run, or one PCB dispatched and routed back. */
  datatype Step = Idle | Ran(dispatch: Dispatch)

  /**
   One iteration of `short_term_schedule`, with `cpu` giving the PCB the CPU
   returns for each PCB it is sent.
   */
  function ShortTermIteration(s: Scheduler, cpu: Pcb -> Pcb): (r: Step)
    requires s.ready.Some?
    ensures r.Idle? <==> |s.ready.value| == 0
    ensures r.Ran? ==> exists p :: p in s.ready.value && r.dispatch.sent == p.(status := Executing)
  {
    var (picked, rest) := GetNext(s.policy, s.ready.value);
    match picked
    case None => Idle
    case Some(p) => Ran(Execute(s.(ready := Some(rest)), p, cpu(p.(status := Executing))))
  }

  /** With READY empty, an iteration dispatches nothing and the scheduler is left as it was. */
  lemma EmptySelectionChangesNothing(s: Scheduler, cpu: Pcb -> Pcb)
    requires s.ready == Some([])
    ensures ShortTermIteration(s, cpu) == Idle
  {
  }

  /**
   Across a dispatching iteration, READY loses exactly the PCB picked and
   gains the returned PCB exactly when that one is neither BLOCKED nor
   TERMINATED; `dom` rises only for TERMINATED.
   */
  lemma IterationConservesReady(s: Scheduler, cpu: Pcb -> Pcb)
    requires s.ready.Some? && |s.ready.value| > 0
    ensures var (picked, _) := GetNext(s.policy, s.ready.value);
      var back := cpu(picked.value.(status := Executing));
      var r := ShortTermIteration(s, cpu).dispatch.sched;
      && multiset(r.ready.value) + multiset{picked.value}
         == multiset(s.ready.value) + (if back.status in {Blocked, Terminated} then multiset{} else multiset{back})
      && r.dom == s.dom + (if back.status == Terminated then 1 else 0)
  {
    var (picked, rest) := GetNext(s.policy, s.ready.value);
    ExecuteRoutesOnce(s.(ready := Some(rest)), picked.value, cpu(picked.value.(status := Executing)));
  }
}

=== FILE: swap_controller.dfy ===
/**
 The Kernel's client of the Memory unit's swap endpoints
 (kernel/src/client/swap_controller.c): each call is the message it puts on
 the Kernel-Memory connection. PCB serialisation is opaque: a PCB's stream is
 passed in as bytes.
 */
module SwapController {
  import opened Common
  import opened Opcodes
  import opened Wire
  import opened Pcbs

  /**
   `swap_controller_exit`: PROCESS_TERMINATED carrying the pid, then the
   Level-I table id, four bytes each.
   */
  function Exit(pcb: Pcb): (msg: Message)
    ensures msg.opcode == PROCESS_TERMINATED
    ensures |msg.payload| == 8
    ensures msg.payload[..4] == EncodeU32(pcb.id) && msg.payload[4..] == EncodeU32(pcb.pageTable)
  {
    Message(PROCESS_TERMINATED, EncodeU32(pcb.id) + EncodeU32(pcb.pageTable))
  }

  /** Two PCBs produce the same exit message exactly when they agree on pid and page table. */
  lemma ExitDeterminedByIdAndTable(a: Pcb, b: Pcb)
    ensures Exit(a) == Exit(b) <==> a.id == b.id && a.pageTable == b.pageTable
  {
    if Exit(a) == Exit(b) {
      assert Exit(a).payload[..4] == Exit(b).payload[..4];
      assert Exit(a).payload[4..] == Exit(b).payload[4..];
      EncodeU32Injective(a.id, b.id);
      EncodeU32Injective(a.pageTable, b.pageTable);
    }
  }

  /** `swap_controller_request_pcb`: RETRIEVE_SWAPPED_PCB carrying the pid as four bytes. */
  function RequestPcb(pid: U32): (msg: Message)
    ensures msg.opcode == RETRIEVE_SWAPPED_PCB && |msg.payload| == 4
    ensures DecodeU32(msg.payload) == pid
  {
    DecodeEncodeU32(pid);
    Message(RETRIEVE_SWAPPED_PCB, EncodeU32(pid))
  }

  /**
   `swap_controller_send_pcb`: the PCB's stream, `pcb_bytes_size` long, under
   the caller's opcode.
   */
  function SendPcb(opcode: Opcode, stream: seq<Byte>): (msg: Message)
    ensures msg.opcode == opcode && msg.payload == stream
  {
    Message(opcode, stream)
  }

  /** `swap_controller_receive_pcb`: whatever stream arrives, no PCB is recovered. */
  function ReceivePcb(stream: seq<Byte>): (r: Option<Pcb>)
    ensures r.None?
  {
    None
  }
}

=== FILE: wire.dfy ===
/**
 Message framing shared by every cross-process call: an operation code plus a
 raw payload. The length prefix a real frame carries is `|payload|`.
 */
module Wire {
  import opened Common
  import opened Opcodes

  datatype Message = Message(opcode: Opcode, payload: seq<Byte>)

  /** The `operands_t` pair (two packed `uint32_t`), the payload of READ/WRITE and MEMORY_INIT. */
  datatype Operands = Operands(op1: U32, op2: U32)

  /** The bytes of an `operands_t`: `op1` first, then `op2`. */
  function EncodeOperands(o: Operands): (bs: seq<Byte>)
    ensures |bs| == 8
    ensures bs[..4] == EncodeU32(o.op1) && bs[4..] == EncodeU32(o.op2)
  {
    EncodeU32(o.op1) + EncodeU32(o.op2)
  }

  /** Reads an `operands_t` from the front of a stream. */
  function DecodeOperands(bs: seq<Byte>): (o: Operands)
    requires |bs| >= 8
    ensures EncodeOperands(o) == bs[..8]
  {
    EncodeDecodeU32(bs[..4]);
    EncodeDecodeU32(bs[4..8]);
    Operands(DecodeU32(bs[..4]), DecodeU32(bs[4..8]))
  }

  /** Decoding an encoded pair gives the pair back. */
  lemma DecodeEncodeOperands(o: Operands)
    ensures DecodeOperands(EncodeOperands(o)) == o
  {
    var bs := EncodeOperands(o);
    assert bs[..4] == EncodeU32(o.op1);
    assert bs[4..8] == EncodeU32(o.op2);
    DecodeEncodeU32(o.op1);
    DecodeEncodeU32(o.op2);
  }
}
